=== FILE: README.md ===
# Clickbait game server: a Dafny model of its round engine

The server of a party game in which players submit Wikipedia links, one
player (the judge) is shown one of them, and the judge guesses who
submitted it. This project models the server side of the game and proves
what its commands promise:

- the round engine (`GameState`): players keyed by socket id, pending
  submissions keyed by submitter id, the selected link and submitter, the
  phase (lobby, submitting, judging, scoring), a round counter, the
  settings and an append-only history;
- the projections: the state view broadcast to every client, and the
  per-player statistics counted from the history by player name;
- link validation and title extraction, over an already parsed URL;
- the guards of the socket handlers. Joining requires a trimmed name that
  is non-empty, at most 20 UTF-16 units long and not taken (ignoring case),
  and a room that is not full. Only the judge may change the settings.
  Anybody may reset. A disconnect from a socket that never joined does
  nothing.

Layout, one module per file:

| file | module | models |
|---|---|---|
| `wrappers.dfy` | `Wrappers` | `null`, and the `{ ok: false, error }` / `{ ok: true, ... }` results |
| `js.dfy` | `Js` | the built-ins the server relies on: `trim`, `includes`, `split(sep)[1]`, `replace(/c/g, d)`, `toLowerCase`, UTF-16 `length`, `Math.floor(Math.random() * n)` |
| `object_keys.dfy` | `ObjectKeys` | the insertion order of `Object.keys` of an object used as a dictionary |
| `utils.dfy` | `Utils` | `backend/game/utils.js` |
| `game_types.dfy` | `GameTypes` | the records, the engine state as one value (`Snapshot`), and its invariant `Consistent` |
| `selectors.dfy` | `Selectors` | `backend/game/selectors.js` |
| `engine.dfy` | `Engine` | each engine command as a transition of a `Snapshot`, with its properties |
| `game_state.dfy` | `Game` | the class `GameState`, whose methods run the commands in place |
| `socket.dfy` | `Socket` | the handlers of `backend/socket/index.js`: guards as functions, and a class `Server` that runs them against one `GameState` |

Each command of `GameState` is an imperative method in `Game.GameState`
that changes the object in place, statement by statement and in the
source's order. Every method keeps the invariant `Consistent`. Each one is
also proved to leave exactly the state, and give exactly the answer, that
the pure transition of the same name in `Engine` computes. The properties
of the commands are proved once, about those transitions. The `forEach`
loops of `assignRandomJudge` and `resetGameKeepPlayers` are `while` loops
with invariants. The object's fields (players, submissions, selection,
phase, round, history, settings) are grouped in one record-valued field,
`state`. A statement writes a field with `state := state.(field := ...)`.

A JavaScript object's key order is part of what the source observes.
`Object.keys(players)` picks the random judge and orders the views, and
`Object.keys(submissions)` picks the random submission. So each map is
paired with its key order (`playerIds`, `submissionIds`), and
`ObjectKeys.KeyOrder` ties the two together. The one object whose key
order the model drops is a round's `scoreChanges` (see "## Left out").

The foreign inputs are parameters:
- `rand`, a real in [0, 1), is the value `Math.random()` returned; the
  index chosen is `floor(rand * n)`, as in the source;
- `now` is `Date.now()`;
- `parse` is the `URL` constructor, a function to `Option<Url>` that is
  `None` where the constructor throws;
- `decode` is `decodeURIComponent`, a function to `Option<string>` that is
  `None` where it throws;
- the settings defaults (module `./settings` is not part of this model)
  are a constructor parameter.

Four consequences of the code that a reader might not expect:
- Pending submissions are only required to belong to current players, not
  to non-judges. When the judge leaves mid-round, the random new judge may
  already have a submission, and it stays. `Engine.EarlyJudgingExample`
  shows the consequence: judging can begin while a non-judge has not
  submitted. For the same reason a round can get stuck: if that judge's
  link and every non-judge's link are pending, there are more pending
  submissions than non-judges, and since judging begins only when the two
  numbers are equal (backend/game/gameState.js:114), no further submission
  starts it; only a new round does (`Engine.SubmitLinkStuck`).
- The selected submitter is not required to be among the pending
  submissions. A departure deletes the submission but not the selection.
- `startRound` does not check the phase, so a round can start from any
  phase, not only from scoring or the lobby.
- A guess while the selected submitter is no longer a player would fault
  in the source. Here it is refused with `SubmitterGone` and changes
  nothing.

## Model

| member | source | states |
|---|---|---|
| Game.GameState.constructor | backend/game/gameState.js:6-9 | a new engine is valid and holds an empty room with the default settings |
| Game.GameState.ResetAll | backend/game/gameState.js:11-20 | afterwards no players, no submissions, no selection, lobby, round 0, empty history, default settings; the invariant holds |
| Engine.EmptyRoom | backend/game/gameState.js:11-20 | the reset state is consistent: no players or submissions, lobby, the given settings |
| GameTypes.WithSoleJudge | backend/game/gameState.js:29-31 | same keys; the chosen player is the only judge; every other field of every player is unchanged |
| Game.GameState.ClearJudges | backend/game/gameState.js:29 | the loop clears every player's judge flag and changes nothing else |
| Game.GameState.AssignRandomJudge | backend/game/gameState.js:26-33 | null exactly for an empty room, with nothing changed; otherwise the player at index floor(rand * n) of the key order becomes the only judge and only judge flags change |
| Game.GameState.EnsureJudgeExists | backend/game/gameState.js:35-42 | with no judge, the given player becomes judge and is returned; otherwise the existing judge is returned and nothing changes |
| Game.GameState.AddPlayer | backend/game/gameState.js:44-54 | keeps the invariant; the new state and the returned judge id are those of `Engine.AddPlayer` |
| Engine.AddPlayer | backend/game/gameState.js:35-54 | the keys become the old keys plus the socket id, listed once each in the key order; the stored record has the trimmed name and score 0; the returned id is a player and is judge (the full effect is in `Engine.AddPlayerJudge` and `Engine.AddPlayerStores`) |
| Engine.AddPlayerKeepsConsistent | backend/game/gameState.js:44-54 | a join keeps the invariant |
| Engine.AddPlayerJudge | backend/game/gameState.js:35-54 | after a join the returned id is the only judge, and it is the newcomer exactly when no other player was judge |
| Engine.AddPlayerStores | backend/game/gameState.js:45-51 | the new record has the trimmed name, score 0, the avatar and join time; the id is appended to the key order if new; other players and all other fields are unchanged |
| Game.GameState.RemovePlayer | backend/game/gameState.js:56-74 | keeps the invariant; the new state and the result are those of `Engine.RemovePlayer` |
| Engine.RemovePlayer | backend/game/gameState.js:56-74 | the keys become the old keys minus the socket id, listed once each; its submission is gone; the settings are kept; a new judge id is returned only when the departed player was judge, and it names a remaining player who is judge (the full effect is in `Engine.RemovePlayerEffect`) |
| Engine.RemovePlayerKeepsConsistent | backend/game/gameState.js:56-71 | a departure keeps the invariant: one judge remains whenever players remain |
| Engine.RemovePlayerEffect | backend/game/gameState.js:56-74 | the player and its submission are deleted and settings kept; `wasJudge` says whether the player was judge; a departed judge is replaced by the player at index floor(rand * n) of the remaining keys, as the only judge, and that id is returned; otherwise the new judge id is null; an emptied room is the empty lobby with the old settings |
| Game.GameState.GetJudgeId | backend/game/gameState.js:76-78 | the loop returns the first judge in key order, or null exactly when nobody is judge |
| GameTypes.FirstJudge | backend/game/gameState.js:41 | a found id is the first judge in key order: it is listed, is judge, and no key before it is judge; none is found only when no listed player is judge |
| GameTypes.FirstJudgeIsSoleJudge | backend/game/gameState.js:76-78 | with exactly one judge, the search finds that judge |
| GameTypes.NonJudgeIds | backend/game/gameState.js:86 | the filtered list holds exactly the listed players that are not judge |
| GameTypes.NonJudgeIdsDistinct | backend/game/gameState.js:86 | filtering a list without repeats gives a list without repeats |
| GameTypes.NonJudgeCount | backend/game/gameState.js:86-87 | the filtered key list is as long as the set of non-judges is large |
| Game.GameState.StartRound | backend/game/gameState.js:80-98 | keeps the invariant; the new state and the result are those of `Engine.StartRound` |
| Engine.StartRound | backend/game/gameState.js:80-98 | a refusal changes nothing; a start comes from the judge, sets the submitting phase, adds 1 to the round, clears the submissions and keeps the players (the exact conditions are in `Engine.StartRoundEffect`) |
| Engine.StartRoundKeepsConsistent | backend/game/gameState.js:80-98 | starting a round keeps the invariant |
| Engine.StartRoundEffect | backend/game/gameState.js:80-97 | succeeds exactly for the judge with at least two non-judges; an unknown or non-judge requester gets the judge error, too few players the count error; a failure changes nothing; a success clears submissions and selection, sets submitting and adds exactly 1 to the round, whatever the phase was, keeping players, history and settings, and answers the judge's name and the new round |
| Engine.StartRoundNeedsThreePlayers | backend/game/gameState.js:86-89 | for the judge of a consistent room, a round starts exactly when at least three players are present |
| Game.GameState.SubmitLink | backend/game/gameState.js:100-123 | keeps the invariant; the new state and the result are those of `Engine.SubmitLink` |
| Engine.SubmitLink | backend/game/gameState.js:100-123 | a refusal changes nothing; an accepted submission comes from a joined non-judge in the submitting phase with a valid link, is stored under the player's id with the link as given, keeps the players, and reports that judging began exactly when the phase is now judging (see `Engine.SubmitLinkRefusals`, `Engine.SubmitLinkAccepted`, `Engine.SubmitLinkJudging`) |
| Engine.SubmitLinkKeepsConsistent | backend/game/gameState.js:100-123 | a submission keeps the invariant |
| Engine.SubmitLinkRefusals | backend/game/gameState.js:101-105 | succeeds exactly for a joined non-judge in the submitting phase with a valid link; the refusals come in the source's order (not joined, judge, wrong phase, invalid link); a refusal changes nothing |
| Engine.SubmitLinkAccepted | backend/game/gameState.js:105-108 | an accepted link is stored with its extracted, underscore-free title under the player's id, replacing an earlier one; players, round, history and settings are unchanged |
| Engine.SubmitLinkJudging | backend/game/gameState.js:110-122 | judging begins exactly when the number of submissions equals the non-judge count and that count is positive; then the selected player is the submission key at index floor(rand * n) and the selected link is its submission; otherwise the phase stays submitting and the selection is unchanged |
| Engine.SubmitLinkJudgingWhenAllIn | backend/game/gameState.js:110-120 | when only non-judges have pending submissions, judging begins exactly when every non-judge has submitted |
| Engine.EarlyJudgingExample | backend/game/gameState.js:110-120 | in a consistent room where the judge still has a pending submission, one more submission starts judging while a non-judge has not submitted |
| Engine.SubmitLinkStuck | backend/game/gameState.js:110-120 | once more submissions are pending than there are non-judges, an accepted submission never starts judging and the round stays in the submitting phase |
| Engine.SubmissionViews | backend/game/gameState.js:158-161 | one entry per pending submission in key order, carrying its link, title and time, and the submitter's name, or "Unknown" for a submitter who left or whose name is empty |
| Game.GameState.JudgeGuess | backend/game/gameState.js:125-175 | keeps the invariant; the new state and the payload are those of `Engine.JudgeGuess` |
| Engine.JudgeGuess | backend/game/gameState.js:125-175 | a refusal changes nothing; a scored guess came from the judge in the judging phase for a current player, reports whether the guessed player is the selected submitter, sets the scoring phase, appends one history entry and keeps the player keys and their key order (see `Engine.JudgeGuessScores`, `Engine.JudgeGuessRecords`) |
| Engine.JudgeGuessKeepsConsistent | backend/game/gameState.js:125-156 | scoring a guess keeps the invariant |
| Engine.JudgeGuessRefusals | backend/game/gameState.js:126-129 | succeeds exactly when the requester is judge, the phase is judging, and the guessed player and the selected submitter are players; the refusals come in the source's order; a refusal changes nothing |
| Engine.JudgeGuessScores | backend/game/gameState.js:131-143 | a correct guess gives the judge and the submitter `pointsForCorrect` each; a wrong one gives only the submitter `pointsForFooling` and leaves the judge's score alone; no other player and no other field of a player changes |
| Engine.JudgeGuessScoreChanges | backend/game/gameState.js:133-143 | the reported score changes name the judge and the submitter with `pointsForCorrect` after a correct guess, and only the submitter with `pointsForFooling` after a wrong one |
| Engine.JudgeGuessRecords | backend/game/gameState.js:145-174 | exactly one history entry is appended, recording round, judge, link, submitter, guess, correctness, score changes and time; the phase becomes scoring; nothing but the player records, the history and the phase changes, so the key order, submissions, selection, round and settings are unchanged; the payload reports the same facts, and its submission list is the views of the pending submissions under the updated scores' player records |
| GameTypes.Merge | backend/game/gameState.js:178 | each settings field the patch supplies replaces the current one, and every other field keeps its value |
| GameTypes.MergeIdempotent | backend/game/gameState.js:178 | applying a patch twice is applying it once, and an empty patch changes nothing |
| Game.GameState.UpdateSettings | backend/game/gameState.js:177-180 | keeps the invariant; the new state and the returned settings are those of `Engine.UpdateSettings` |
| Engine.UpdateSettings | backend/game/gameState.js:177-180 | the returned settings are the patch merged over the old settings (a field the patch leaves out keeps its old value); only the settings change, to the returned record; merging the same patch into it again changes nothing |
| Engine.UpdateSettingsEffect | backend/game/gameState.js:177-180 | the returned settings are the merged ones; nothing but the settings changes; the invariant holds; repeating the update changes nothing more |
| Game.GameState.ClearScoresAndJudges | backend/game/gameState.js:183-186 | the loop sets every player's score to 0 and clears its judge flag, changing nothing else |
| Game.GameState.ResetGameKeepPlayers | backend/game/gameState.js:182-195 | keeps the invariant; the new state and the returned id are those of `Engine.ResetGameKeepPlayers` |
| Engine.ResetGameKeepPlayers | backend/game/gameState.js:182-195 | the same player keys remain, every score is 0, the phase is the lobby with round 0, no history and no submissions, the settings are kept, and a returned id is a player who is judge (the full effect is in `Engine.ResetGameKeepPlayersEffect`) |
| Engine.ResetGameKeepPlayersEffect | backend/game/gameState.js:182-195 | the same players remain with score 0; the player at index floor(rand * n) is the only judge and is returned, null exactly for an empty room; no submissions, selection or history; lobby, round 0; settings kept |
| Game.GameState.BuildStats | backend/game/gameState.js:197-199 | the statistics of the current state, in which no player has more correct guesses than rounds judged, nor more rounds judged than history entries, nor more entries than rounds |
| Selectors.PlayersArray | backend/game/selectors.js:1-10 | one entry per listed key, in order, with `id` the key and the player's fields copied unchanged |
| Selectors.PlayersArrayListsEveryPlayerOnce | backend/game/selectors.js:1-10 | over the object's key order, every player appears exactly once |
| Selectors.BuildOutboundGameState | backend/game/selectors.js:12-25 | the submission count is the number of submissions, the non-judge count the number of players who are not judge; phase, selected link and round are copied |
| Selectors.OutboundCounts | backend/game/selectors.js:12-25 | in a consistent room with players, the non-judge count is one less than the player count, and there are at most as many pending submissions as there are players |
| Selectors.Filter | backend/game/selectors.js:30-32 | the filtered history holds exactly the entries of the history that match, each as many times as the history holds it, and no entry that does not match |
| Selectors.CountAfterWeakerFilter | backend/game/selectors.js:30-38 | pre-filtering the history by "submitter or judge" does not change any of the three counts |
| Selectors.CountMonotone | backend/game/selectors.js:36-37 | a stronger filter never counts more entries: correct guesses never exceed rounds judged |
| Selectors.StatsFor | backend/game/selectors.js:28-40 | rounds judged, correct guesses and judges fooled are the numbers of history entries naming the player as judge, as a judge who guessed right, and as a submitter who fooled the judge; correct guesses ≤ rounds judged ≤ history length |
| Selectors.BuildStats | backend/game/selectors.js:27-46 | total rounds is the round counter; the history is returned as it is; one statistics entry per player in key order, with the counts above |
| Selectors.StatsBounded | backend/game/selectors.js:36-43 | in a consistent state, for every player, correct guesses ≤ rounds judged ≤ history length ≤ total rounds |
| ObjectKeys.Put | backend/game/gameState.js:45 | assigning a key keeps the order of an existing key and appends a new one |
| ObjectKeys.Delete | backend/game/gameState.js:58-59 | deleting a key lists exactly the other keys; deleting an absent key changes nothing; in a list without repeats, deleting the key at index i leaves the keys before and after it in their order |
| ObjectKeys.PutKeyOrder | backend/game/gameState.js:108 | after an assignment the order lists the enlarged key set once each |
| ObjectKeys.DeleteDistinct | backend/game/gameState.js:58-59 | deleting keeps the remaining keys listed once each |
| ObjectKeys.DeleteKeyOrder | backend/game/gameState.js:58-59 | after a delete the order lists the remaining keys once each |
| ObjectKeys.KeyOrderLength | backend/game/selectors.js:14 | `Object.keys(o).length` is the number of keys |
| ObjectKeys.KeyOrderEmpty | backend/game/gameState.js:66 | the key list is empty exactly when the object has no keys |
| Js.Includes | backend/game/utils.js:5-8 | `includes` is true exactly when the needle occurs at some index |
| Js.IndexFrom | backend/game/utils.js:5-8 | the first occurrence at or after the start index, or none when there is no occurrence |
| Js.IncludesChar | backend/game/utils.js:7 | for a one-character needle, `includes` is membership |
| Js.NotIncludesLonger | backend/game/utils.js:5 | a needle longer than the string never occurs |
| Utils.IsValidWikipediaUrl | backend/game/utils.js:1-13 | a link is valid exactly when it parsed, the host contains "wikipedia.org", the path contains "/wiki/", has no ':' and does not contain "disambiguation" |
| Utils.ColonRejected | backend/game/utils.js:7 | any path containing ':' is rejected |
| Utils.DisambiguationRejected | backend/game/utils.js:8 | any path containing "disambiguation" is rejected |
| Utils.UnparseableRejected | backend/game/utils.js:10-12 | a link the URL constructor refuses is rejected |
| Utils.ExampleOtherHostRejected | backend/game/utils.js:5 | https://example.com/wiki/Foo is rejected |
| Utils.ExampleCategoryRejected | backend/game/utils.js:7 | https://en.wikipedia.org/wiki/Category:Foo is rejected |
| Utils.ExampleArticleAccepted | backend/game/utils.js:1-13 | https://en.wikipedia.org/wiki/Foo is accepted |
| Js.SecondPiece | backend/game/utils.js:18 | "" when the separator does not occur; otherwise, with the first occurrence at i, the piece is the prefix of the rest after it (from i + the separator's length) that ends at the next occurrence of the separator in that rest, or is the whole rest when there is none; it never contains the separator |
| Js.SecondPieceAfterPrefix | backend/game/utils.js:18 | a path "/wiki/" + t, where t has no "/wiki/", yields t |
| Js.NoOccurrenceInPrefix | backend/game/utils.js:18 | a separator that starts nowhere before index j does not occur in the first j characters |
| Js.ReplaceAll | backend/game/utils.js:19 | same length; every underscore becomes a space and every other character stays; no underscore remains |
| Utils.ExtractWikipediaTitle | backend/game/utils.js:15-23 | a parse or decode failure gives exactly "Unknown Article"; otherwise the title is the decoded piece after "/wiki/", character by character, with every '_' shown as ' ' and every other character kept; the title never contains '_' |
| Utils.ArticleTitle | backend/game/utils.js:18-19 | for a path "/wiki/" + t, the title is the decoded t with underscores shown as spaces and nothing else changed |
| Utils.ExampleArticleTitle | backend/game/utils.js:15-23 | the title of https://en.wikipedia.org/wiki/Foo is "Foo" |
| Js.RandomIndex | backend/game/utils.js:54-55 | `Math.floor(Math.random() * n)` is a valid index into n entries |
| Utils.GenerateAvatar | backend/game/utils.js:25-57 | the colour is one of the 8 listed and the icon one of the 15 listed |
| Js.Trim | backend/socket/index.js:14 | the result is no longer than the string and neither starts nor ends with white space (the slice it is is stated by `Js.TrimIsStrippedSlice`) |
| Js.TrimIsStrippedSlice | backend/socket/index.js:14 | `trim` returns the slice of the string between its leading and its trailing white space, and it neither starts nor ends with white space |
| Js.TrimIdempotent | backend/game/gameState.js:46 | trimming an already trimmed name changes nothing |
| Js.TrimUnpadded | backend/socket/index.js:14 | a string with no white space at either end is its own trim |
| Js.ToLower | backend/socket/index.js:19-20 | same length; ASCII capitals become lower case and every other character stays |
| Js.Utf16Length | backend/socket/index.js:17 | the UTF-16 length is the number of code points plus the number of code points above U+FFFF, so it lies between the number of code points and twice that |
| Socket.JoinName | backend/socket/index.js:14 | a missing name is the empty name; a given name is trimmed |
| Socket.LowerNames | backend/socket/index.js:19 | holds exactly the lower-cased names of the current players |
| Socket.CheckJoin | backend/socket/index.js:14-24 | an accepted name is the trimmed name |
| Socket.CheckJoinIff | backend/socket/index.js:14-24 | a join is accepted exactly when the trimmed name is non-empty, at most 20 units long, not taken ignoring case, and the room has fewer than `maxPlayers` players; otherwise the first failing check is reported, in the handler's order |
| Socket.BlankNameRefused | backend/socket/index.js:14-16 | a missing name or a name of only white space is refused as empty |
| Socket.DuplicateNameExample | backend/socket/index.js:19-20 | once "Ann" has joined, "aNN" is refused as taken |
| Socket.Join | backend/socket/index.js:13-31 | a refused join changes nothing; an accepted one happened with fewer than `maxPlayers` players, adds exactly the socket id to the keys and answers the record stored there, with score 0 (see `Socket.JoinEffect`, `Socket.CheckJoinIff`) |
| Socket.JoinEffect | backend/socket/index.js:16-31 | a refused join changes nothing; an accepted one is `addPlayer` with the trimmed name, and it answers the stored record, which carries exactly that name and score 0 |
| Socket.JoinKeepsNamesUnique | backend/socket/index.js:19-26 | if names were distinct ignoring case, they still are after any join |
| Socket.JoinWithinCapacity | backend/socket/index.js:22-26 | an accepted join found room for one more player; joins never take a room past `maxPlayers` |
| Socket.UpdateSettings | backend/socket/index.js:99-107 | succeeds exactly for the judge; a refusal changes nothing; a success changes only the settings, to the record it answers (see `Socket.UpdateSettingsGuard`) |
| Socket.UpdateSettingsGuard | backend/socket/index.js:100-106 | a request is carried out exactly when it comes from the judge; otherwise it is refused and nothing changes; a carried-out request merges the patch and answers the new settings |
| Socket.ResetGame | backend/socket/index.js:110-117 | the room afterwards is consistent, in the lobby, with the same player keys; an announced name is the name of a player who is judge afterwards (see `Socket.ResetGameNoAuthorization`) |
| Socket.ResetGameNoAuthorization | backend/socket/index.js:110-117 | the outcome does not depend on who asked, the state is that of `resetGameKeepPlayers`, and a name announced is that of the new only judge |
| Socket.Disconnect | backend/socket/index.js:123-135 | an unknown socket changes nothing and announces nothing; a player's disconnect announces its name, removes exactly its key, and announces a new judge only when the departed player was judge (see `Socket.DisconnectEffect`) |
| Socket.DisconnectEffect | backend/socket/index.js:124-135 | an unknown socket changes nothing; a player's departure is `removePlayer`; a new judge is announced exactly when the departed player was judge and a new judge id came back, and the name is that of the new only judge |
| Socket.RemovePlayerKeepsNames | backend/socket/index.js:128 | a departure adds no player and renames none |
| Socket.StartRoundKeepsNames | backend/socket/index.js:46 | starting a round adds no player and renames none |
| Socket.SubmitLinkKeepsNames | backend/socket/index.js:62 | a submission adds no player and renames none |
| Socket.JudgeGuessKeepsNames | backend/socket/index.js:82 | a guess adds no player and renames none |
| Socket.ResetGameKeepsNames | backend/socket/index.js:111 | a reset adds no player and renames none |
| Socket.Server.constructor | backend/socket/index.js:4-5 | the server starts with one engine holding an empty room |
| Socket.Server.OnJoin | backend/socket/index.js:13-42 | keeps the engine invariant and case-insensitively distinct names; the outcome is that of `Join` |
| Socket.Server.OnStartRound | backend/socket/index.js:45-58 | keeps both invariants; the outcome is that of `startRound` |
| Socket.Server.OnSubmitLink | backend/socket/index.js:61-78 | keeps both invariants; the outcome is that of `submitLink` |
| Socket.Server.OnJudgeGuess | backend/socket/index.js:81-91 | keeps both invariants; the outcome is that of `judgeGuess` |
| Socket.Server.OnGetStats | backend/socket/index.js:94-96 | answers the statistics of the current state, within the bounds above, and changes nothing |
| Socket.Server.OnUpdateSettings | backend/socket/index.js:99-107 | keeps both invariants; the outcome is that of the guarded `UpdateSettings` |
| Socket.Server.OnResetGame | backend/socket/index.js:110-120 | keeps both invariants; the outcome is that of `ResetGame` |
| Socket.Server.OnDisconnect | backend/socket/index.js:123-144 | keeps both invariants; the outcome is that of `Disconnect` |

## Left out

- The emitted events, `broadcast()` and `console.log` are not modelled. A handler's answer is its result, and the broadcast view is `Selectors.BuildOutboundGameState`.
- `backend/server.js`, `backend/socket/events.js` and `frontend/script.js` are not part of this model. They are transport, event-name constants and user interface.
- The WHATWG `URL` parser and `decodeURIComponent` are not modelled; they are the parameters `parse` and `decode`.
- `Math.random()` and `Date.now()` are not modelled; their values are parameters.
- The `await` in `submitLink`: computing the title and storing the submission are one atomic step. Interleaving with other handlers is not modelled.
- Settings are modelled as integers. The settings form sends `parseInt` of each field, which is NaN for a blank field, and a patch may carry strings. A NaN or string `maxPlayers` makes the capacity check at backend/socket/index.js:22 false, so it no longer limits the room; a NaN or string `pointsForCorrect` or `pointsForFooling` makes `score +=` at backend/game/gameState.js:136-141 give NaN or a concatenated string. `Socket.JoinWithinCapacity` and `Engine.JudgeGuessScores` do not cover these cases.
- `scoreChanges` is a map, so its key order is not modelled. The source writes the judge's key before the submitter's (backend/game/gameState.js:138-139), and the client lists the awarded points in that order; `Engine.JudgeGuessScoreChanges` states the keys and values but not their order.
- Names are Dafny strings of Unicode scalar values. A name holding a lone UTF-16 surrogate, which the source would trim and length-check like any other (backend/socket/index.js:14-17), cannot be represented, and `Js.Utf16Length` counts each scalar value above U+FFFF as the two units of its surrogate pair.
- `roundTimeLimit` is stored, merged and reported, but nothing reads it, so nothing enforces it.
- Js.ToLower: lower-cases ASCII letters only. JavaScript's `toLowerCase` also maps non-ASCII letters, so two names that differ only in the case of a non-ASCII letter count as distinct here.
- The key order of a JavaScript object puts integer-like keys first, in numeric order. Socket ids are never integer-like, so the model uses insertion order only.
- Game.GameState.GetJudgeId: the source's `|| null` would turn an empty-string judge id into null. Socket ids are never empty, so the model returns the id found.
- Engine.RemovePlayer: for an id that is not a player, the source's `wasJudge` is `undefined`; the model uses false. The disconnect handler never makes that call.
- A `join-game` payload whose name is not a string (the source would throw in `trim`) is not modelled. The name is an optional string.
- The settings patch carries only the four known fields. Extra fields in the patch, which the source copies into the settings, are not modelled.
- Engine.JudgeGuess: where the source would fault on a selected submitter who has left, the model refuses the guess with `SubmitterGone` and changes nothing.
- The fields of `GameState` are held as one record-valued field rather than as separate fields. Each statement still writes only the fields the source writes. The source shares some records between fields: the selected link is the submission object itself (backend/game/gameState.js:116), and the history entry and the returned payload share the same `selectedLink` and `scoreChanges` objects (backend/game/gameState.js:145-174). It never mutates them through these aliases, so the model holds them as values.
- The `get-stats` handler only relays `buildStats`. `start-round`, `submit-link` and `judge-guess` relay the engine commands; their properties are those of the commands.

=== FILE: engine.dfy ===
/** The commands of the round engine (backend/game/gameState.js) as
    transitions of a state value: each takes the state before the command and
    its foreign inputs, and gives the command's answer and the state after.
    The class in module Game runs the same commands in place and is proved
    to end in the state these functions compute; what the commands promise
    is proved here, about the functions.

    The foreign inputs are parameters: `rand` is the value `Math.random()`
    returned (a real in [0, 1)), `now` the value of `Date.now()`, and `parse`
    and `decode` stand for the `URL` constructor and `decodeURIComponent`. */
module Engine {
  import opened Wrappers
  import opened Js
  import opened ObjectKeys
  import opened Utils
  import opened GameTypes

  /** The `{ ok: false, error }` results of the engine, with their messages. */
  datatype GameError =
    | NotJudgeToStart
    | TooFewPlayers
    | NotJoined
    | JudgeCannotSubmit
    | NotAcceptingSubmissions
    | InvalidLink
    | NotJudgeToGuess
    | NotJudging
    | InvalidGuess
    | SubmitterGone
  {
    function Message(): string
    {
      match this
      case NotJudgeToStart => "Only the judge can start a round"
      case TooFewPlayers => "Need at least 2 non-judge players to start"
      case NotJoined => "You must join the game first"
      case JudgeCannotSubmit => "Judge cannot submit links"
      case NotAcceptingSubmissions => "Not accepting submissions right now"
      case InvalidLink => "Please submit a valid Wikipedia article URL"
      case NotJudgeToGuess => "Only the judge can make guesses"
      case NotJudging => "Not in judging phase"
      case InvalidGuess => "Invalid player guess"
      // No message exists for this case: the guess handler would fault on the
      // missing submitter before changing anything.
      case SubmitterGone => "Selected player is no longer in the game"
    }
  }

  datatype RoundStarted = RoundStarted(judgeName: string, roundNumber: nat)

  datatype Submitted = Submitted(title: string, movedToJudging: bool)

  datatype Removal = Removal(wasJudge: bool, newJudgeId: Option<Id>)

  /** One pending submission as the round summary lists it. */
  datatype SubmissionView = SubmissionView(player: string, link: string, title: string, submittedAt: int)

  datatype RoundPayload = RoundPayload(
    roundNumber: nat,
    judgeGuess: string,
    correctPlayer: string,
    wasCorrect: bool,
    selectedLink: Submission,
    scoreChanges: map<Id, int>,
    allSubmissions: seq<SubmissionView>)

  /** What a command answers, and the state it leaves. */
  datatype Outcome<+T> = Outcome(result: T, after: Snapshot)

  /** `players[id]?.name || 'Unknown'`. */
  function NameOrUnknown(players: map<Id, Player>, id: Id): string
  {
    if id in players && players[id].name != "" then players[id].name else "Unknown"
  }

  /** Every pending submission, in key order, with its submitter's name. */
  function SubmissionViews(ids: seq<Id>, submissions: map<Id, Submission>, players: map<Id, Player>): (r: seq<SubmissionView>)
    requires forall k :: k in ids ==> k in submissions
    ensures |r| == |ids|
    ensures forall i :: 0 <= i < |r| ==>
      && r[i].link == submissions[ids[i]].link && r[i].title == submissions[ids[i]].title
      && r[i].submittedAt == submissions[ids[i]].submittedAt
      && (ids[i] in players && players[ids[i]].name != "" ==> r[i].player == players[ids[i]].name)
      && (ids[i] in players && players[ids[i]].name == "" ==> r[i].player == "Unknown")
      && (ids[i] !in players ==> r[i].player == "Unknown")
  {
    seq(|ids|, i requires 0 <= i < |ids| =>
      var sub := submissions[ids[i]];
      SubmissionView(NameOrUnknown(players, ids[i]), sub.link, sub.title, sub.submittedAt))
  }

  /** The player record with `points` added to its score. */
  function AddScore(players: map<Id, Player>, id: Id, points: int): (r: map<Id, Player>)
    requires id in players
    ensures r.Keys == players.Keys
    ensures r[id] == players[id].(score := players[id].score + points)
    ensures forall k :: k in players && k != id ==> r[k] == players[k]
  {
    players[id := players[id].(score := players[id].score + points)]
  }

  // ------------------------------------------------------------ resetAll

  /** `resetAll` with the given settings: the state of an empty room. */
  function EmptyRoom(settings: Settings): (s: Snapshot)
    ensures Consistent(s)
    ensures s.players == map[] && s.submissions == map[] && s.gamePhase == Lobby && s.settings == settings
  {
    Snapshot(map[], [], map[], [], None, None, Lobby, 0, [], settings)
  }

  // ----------------------------------------------------------- addPlayer

  /** `addPlayer`: the new record, not judge, under the socket id (replacing
      any record the id had), then `ensureJudgeExists`: the new player becomes
      judge if nobody is; the judge's id is the answer. */
  function AddPlayer(s: Snapshot, socketId: Id, name: string, avatar: Avatar, now: int): (o: Outcome<Id>)
    requires WellKeyed(s)
    ensures o.after.players.Keys == s.players.Keys + {socketId}
    ensures KeyOrder(o.after.playerIds, o.after.players.Keys)
    ensures o.result in o.after.players && o.after.players[o.result].isJudge
    ensures o.after.players[socketId].name == Trim(name) && o.after.players[socketId].score == 0
  {
    var added := s.players[socketId := Player(Trim(name), 0, false, avatar, now)];
    var order := Put(s.playerIds, socketId);
    PutKeyOrder(s.playerIds, s.players.Keys, socketId);
    match FirstJudge(order, added)
    case None => Outcome(socketId, s.(players := added[socketId := added[socketId].(isJudge := true)], playerIds := order))
    case Some(j) => Outcome(j, s.(players := added, playerIds := order))
  }

  /** Joining keeps the invariant. */
  lemma AddPlayerKeepsConsistent(s: Snapshot, socketId: Id, name: string, avatar: Avatar, now: int)
    requires Consistent(s)
    ensures Consistent(AddPlayer(s, socketId, name, avatar, now).after)
  {
    var o := AddPlayer(s, socketId, name, avatar, now);
    PutKeyOrder(s.playerIds, s.players.Keys, socketId);
    AddPlayerJudge(s, socketId, name, avatar, now);
  }

  /** After a join the answer is the one judge; it is the newcomer exactly
      when no other player was judge. */
  lemma AddPlayerJudge(s: Snapshot, socketId: Id, name: string, avatar: Avatar, now: int)
    requires Consistent(s)
    ensures var o := AddPlayer(s, socketId, name, avatar, now);
      && SoleJudge(o.after.players, o.result)
      && (o.result == socketId <==> forall k :: k in s.players && k != socketId ==> !s.players[k].isJudge)
  {
    var added := s.players[socketId := Player(Trim(name), 0, false, avatar, now)];
    var order := Put(s.playerIds, socketId);
    PutKeyOrder(s.playerIds, s.players.Keys, socketId);
    if j :| j in s.players && j != socketId && s.players[j].isJudge {
      assert SoleJudge(s.players, j);
      assert SoleJudge(added, j);
      FirstJudgeIsSoleJudge(order, added, j);
      assert AddPlayer(s, socketId, name, avatar, now) == Outcome(j, s.(players := added, playerIds := order));
    } else {
      assert forall k :: k in order ==> !added[k].isJudge;
      assert FirstJudge(order, added).None?;
      var crowned := added[socketId := added[socketId].(isJudge := true)];
      assert SoleJudge(crowned, socketId);
    }
  }

  /** A join stores the trimmed name with score 0, the avatar and the join
      time under the socket id, appends a new id to the key order, and
      changes no other player and nothing else. */
  lemma AddPlayerStores(s: Snapshot, socketId: Id, name: string, avatar: Avatar, now: int)
    requires WellKeyed(s)
    ensures var o := AddPlayer(s, socketId, name, avatar, now);
      && o.after.players.Keys == s.players.Keys + {socketId}
      && o.after.players[socketId] == Player(Trim(name), 0, o.result == socketId, avatar, now)
      && (forall k :: k in s.players && k != socketId ==> o.after.players[k] == s.players[k])
      && o.after.playerIds == Put(s.playerIds, socketId)
      && o.after.(players := s.players, playerIds := s.playerIds) == s
  {
  }

  // -------------------------------------------------------- removePlayer

  /** `removePlayer`: the player and its submission are deleted; if it was
      the judge and others remain, the player at index floor(rand * n) of the
      remaining key order becomes the only judge; if nobody remains, the room
      goes back to the lobby with the settings kept. `wasJudge` is false for
      an id that is not a player. */
  function RemovePlayer(s: Snapshot, socketId: Id, rand: real): (o: Outcome<Removal>)
    requires WellKeyed(s) && 0.0 <= rand < 1.0
    ensures o.after.players.Keys == s.players.Keys - {socketId}
    ensures KeyOrder(o.after.playerIds, o.after.players.Keys)
    ensures socketId !in o.after.submissions && o.after.settings == s.settings
    ensures o.result.newJudgeId.Some? ==>
      && o.result.wasJudge
      && o.result.newJudgeId.value in o.after.players && o.after.players[o.result.newJudgeId.value].isJudge
  {
    var wasJudge := socketId in s.players && s.players[socketId].isJudge;
    var players := s.players - {socketId};
    var order := Delete(s.playerIds, socketId);
    DeleteKeyOrder(s.playerIds, s.players.Keys, socketId);
    KeyOrderEmpty(order, players.Keys);
    var s1 := s.(players := players, playerIds := order,
                 submissions := s.submissions - {socketId}, submissionIds := Delete(s.submissionIds, socketId));
    if wasJudge && |order| > 0 then
      var pick := order[RandomIndex(rand, |order|)];
      Outcome(Removal(true, Some(pick)), s1.(players := WithSoleJudge(players, pick)))
    else if |order| == 0 then
      Outcome(Removal(wasJudge, None), EmptyRoom(s.settings))
    else
      Outcome(Removal(wasJudge, None), s1)
  }

  /** Leaving keeps the invariant. */
  lemma RemovePlayerKeepsConsistent(s: Snapshot, socketId: Id, rand: real)
    requires Consistent(s) && 0.0 <= rand < 1.0
    ensures Consistent(RemovePlayer(s, socketId, rand).after)
  {
    var o := RemovePlayer(s, socketId, rand);
    var players := s.players - {socketId};
    DeleteKeyOrder(s.playerIds, s.players.Keys, socketId);
    DeleteKeyOrder(s.submissionIds, s.submissions.Keys, socketId);
    KeyOrderEmpty(Delete(s.playerIds, socketId), players.Keys);
    if !o.result.wasJudge && players != map[] {
      var j :| SoleJudge(s.players, j);
      assert j != socketId && SoleJudge(players, j);
    }
  }

  /** What a departure does: the player and its submission are gone, the
      round goes on, a departed judge is replaced by a random remaining
      player, and an emptied room is a fresh lobby that keeps its settings. */
  lemma RemovePlayerEffect(s: Snapshot, socketId: Id, rand: real)
    requires Consistent(s) && 0.0 <= rand < 1.0
    ensures var o := RemovePlayer(s, socketId, rand);
      && o.after.settings == s.settings
      && o.result.wasJudge == (socketId in s.players && s.players[socketId].isJudge)
      && (s.players - {socketId} == map[] ==> o.after == EmptyRoom(s.settings) && o.result.newJudgeId == None)
      && (s.players - {socketId} != map[] ==>
           && o.after.playerIds == Delete(s.playerIds, socketId)
           && o.after.submissions == s.submissions - {socketId}
           && o.after.submissionIds == Delete(s.submissionIds, socketId)
           && o.after.(players := s.players, playerIds := s.playerIds,
                       submissions := s.submissions, submissionIds := s.submissionIds) == s
           && (!o.result.wasJudge ==> o.result.newJudgeId == None && o.after.players == s.players - {socketId})
           && (o.result.wasJudge ==>
                 && o.result.newJudgeId.Some?
                 && o.result.newJudgeId.value in s.players && o.result.newJudgeId.value != socketId
                 && o.result.newJudgeId.value == o.after.playerIds[RandomIndex(rand, |o.after.playerIds|)]
                 && o.after.players == WithSoleJudge(s.players - {socketId}, o.result.newJudgeId.value)))
  {
    var players := s.players - {socketId};
    DeleteKeyOrder(s.playerIds, s.players.Keys, socketId);
    KeyOrderEmpty(Delete(s.playerIds, socketId), players.Keys);
  }

  // ---------------------------------------------------------- startRound

  /** `startRound`: only the judge may start, and only with at least two
      non-judges (counted over the key order); then the submissions and the
      selection are cleared, the phase becomes submitting and the round
      counter goes up by one, whatever the phase was. */
  function StartRound(s: Snapshot, requesterId: Id): (o: Outcome<Result<RoundStarted, GameError>>)
    requires WellKeyed(s)
    ensures o.result.Failure? ==> o.after == s
    ensures o.result.Success? ==>
      && requesterId in s.players && s.players[requesterId].isJudge
      && o.after.gamePhase == Submitting && o.after.roundNumber == s.roundNumber + 1
      && o.after.submissions == map[] && o.after.players == s.players
  {
    if requesterId !in s.players || !s.players[requesterId].isJudge then
      Outcome(Failure(NotJudgeToStart), s)
    else if |NonJudgeIds(s.playerIds, s.players)| < 2 then
      Outcome(Failure(TooFewPlayers), s)
    else
      var next := s.(submissions := map[], submissionIds := [], selectedLink := None, selectedPlayer := None,
                     gamePhase := Submitting, roundNumber := s.roundNumber + 1);
      Outcome(Success(RoundStarted(s.players[requesterId].name, next.roundNumber)), next)
  }

  /** Starting a round keeps the invariant. */
  lemma StartRoundKeepsConsistent(s: Snapshot, requesterId: Id)
    requires Consistent(s)
    ensures Consistent(StartRound(s, requesterId).after)
  {
  }

  /** A round starts exactly when the requester is the judge and at least two
      other players are not judge; a refusal says which check failed and
      changes nothing; a start opens a fresh round with the next number and
      keeps the players, the history and the settings. */
  lemma StartRoundEffect(s: Snapshot, requesterId: Id)
    requires WellKeyed(s)
    ensures var o := StartRound(s, requesterId);
      && (o.result.Success? <==>
            requesterId in s.players && s.players[requesterId].isJudge && |NonJudgeSet(s.players)| >= 2)
      && (requesterId !in s.players || !s.players[requesterId].isJudge ==> o.result == Failure(NotJudgeToStart))
      && (requesterId in s.players && s.players[requesterId].isJudge && |NonJudgeSet(s.players)| < 2 ==>
            o.result == Failure(TooFewPlayers))
      && (o.result.Failure? ==> o.after == s)
      && (o.result.Success? ==>
            && o.after.submissions == map[] && o.after.submissionIds == []
            && o.after.selectedLink == None && o.after.selectedPlayer == None
            && o.after.gamePhase == Submitting && o.after.roundNumber == s.roundNumber + 1
            && o.after.players == s.players && o.after.playerIds == s.playerIds
            && o.after.gameHistory == s.gameHistory && o.after.settings == s.settings
            && o.result.value == RoundStarted(s.players[requesterId].name, o.after.roundNumber))
  {
    NonJudgeCount(s.playerIds, s.players);
  }

  /** With one judge, a round can start exactly when at least three players
      are in the room. */
  lemma StartRoundNeedsThreePlayers(s: Snapshot, requesterId: Id)
    requires Consistent(s)
    requires requesterId in s.players && s.players[requesterId].isJudge
    ensures StartRound(s, requesterId).result.Success? <==> |s.players| >= 3
  {
    StartRoundEffect(s, requesterId);
    NonJudgesBesideSoleJudge(s.players, requesterId);
  }

  // ---------------------------------------------------------- submitLink

  /** Judging begins once as many submissions are pending as the key order
      lists non-judges, and there are some. */
  predicate AllSubmitted(order: seq<Id>, players: map<Id, Player>, submissionIds: seq<Id>)
    requires forall k :: k in order ==> k in players
  {
    var nonJudges := NonJudgeIds(order, players);
    |nonJudges| > 0 && |submissionIds| == |nonJudges|
  }

  /** `submitLink`: refused, in this order, to unknown ids, to the judge,
      outside the submitting phase and for links that are not Wikipedia
      articles. Otherwise the link and its title are stored under the
      player's id (replacing an earlier one); once all have submitted, the
      submission at index floor(rand * n) of the key order is selected and
      judging begins. */
  function SubmitLink(s: Snapshot, socketId: Id, link: string, parse: string -> Option<Url>,
                      decode: string -> Option<string>, now: int, rand: real): (o: Outcome<Result<Submitted, GameError>>)
    requires WellKeyed(s) && 0.0 <= rand < 1.0
    ensures o.result.Failure? ==> o.after == s
    ensures o.result.Success? ==>
      && socketId in s.players && !s.players[socketId].isJudge && s.gamePhase == Submitting
      && IsValidWikipediaUrl(parse(link))
      && o.after.submissions.Keys == s.submissions.Keys + {socketId}
      && o.after.submissions[socketId].link == link && o.after.players == s.players
      && (o.result.value.movedToJudging <==> o.after.gamePhase == Judging)
  {
    if socketId !in s.players then Outcome(Failure(NotJoined), s)
    else if s.players[socketId].isJudge then Outcome(Failure(JudgeCannotSubmit), s)
    else if s.gamePhase != Submitting then Outcome(Failure(NotAcceptingSubmissions), s)
    else if !IsValidWikipediaUrl(parse(link)) then Outcome(Failure(InvalidLink), s)
    else
      var title := ExtractWikipediaTitle(parse(link), decode);
      var stored := s.(submissions := s.submissions[socketId := Submission(link, title, now)],
                       submissionIds := Put(s.submissionIds, socketId));
      if AllSubmitted(s.playerIds, s.players, stored.submissionIds) then
        var pick := stored.submissionIds[RandomIndex(rand, |stored.submissionIds|)];
        Outcome(Success(Submitted(title, true)),
                stored.(selectedLink := Some(stored.submissions[pick]), selectedPlayer := Some(pick), gamePhase := Judging))
      else
        Outcome(Success(Submitted(title, false)), stored)
  }

  /** Submitting keeps the invariant. */
  lemma SubmitLinkKeepsConsistent(s: Snapshot, socketId: Id, link: string, parse: string -> Option<Url>,
                                  decode: string -> Option<string>, now: int, rand: real)
    requires Consistent(s) && 0.0 <= rand < 1.0
    ensures Consistent(SubmitLink(s, socketId, link, parse, decode, now, rand).after)
  {
    PutKeyOrder(s.submissionIds, s.submissions.Keys, socketId);
  }

  /** The refusals of a submission, in the order they are checked; a refused
      submission changes nothing. */
  lemma SubmitLinkRefusals(s: Snapshot, socketId: Id, link: string, parse: string -> Option<Url>,
                           decode: string -> Option<string>, now: int, rand: real)
    requires WellKeyed(s) && 0.0 <= rand < 1.0
    ensures var o := SubmitLink(s, socketId, link, parse, decode, now, rand);
      && (o.result.Success? <==>
            socketId in s.players && !s.players[socketId].isJudge && s.gamePhase == Submitting
            && IsValidWikipediaUrl(parse(link)))
      && (socketId !in s.players ==> o.result == Failure(NotJoined))
      && (socketId in s.players && s.players[socketId].isJudge ==> o.result == Failure(JudgeCannotSubmit))
      && (socketId in s.players && !s.players[socketId].isJudge && s.gamePhase != Submitting ==>
            o.result == Failure(NotAcceptingSubmissions))
      && ((socketId in s.players && !s.players[socketId].isJudge && s.gamePhase == Submitting
           && !IsValidWikipediaUrl(parse(link))) ==> o.result == Failure(InvalidLink))
      && (o.result.Failure? ==> o.after == s)
  {
  }

  /** An accepted submission is stored with its underscore-free title under
      the player's id (replacing an earlier one of the same player); the
      players, round number, history and settings do not change. */
  lemma SubmitLinkAccepted(s: Snapshot, socketId: Id, link: string, parse: string -> Option<Url>,
                           decode: string -> Option<string>, now: int, rand: real)
    requires WellKeyed(s) && 0.0 <= rand < 1.0
    requires socketId in s.players && !s.players[socketId].isJudge && s.gamePhase == Submitting
    requires IsValidWikipediaUrl(parse(link))
    ensures var o := SubmitLink(s, socketId, link, parse, decode, now, rand);
      var title := ExtractWikipediaTitle(parse(link), decode);
      && o.result == Success(Submitted(title, o.result.value.movedToJudging))
      && '_' !in o.result.value.title
      && o.after.submissions == s.submissions[socketId := Submission(link, title, now)]
      && o.after.submissionIds == Put(s.submissionIds, socketId)
      && o.after.players == s.players && o.after.playerIds == s.playerIds
      && o.after.roundNumber == s.roundNumber && o.after.gameHistory == s.gameHistory
      && o.after.settings == s.settings
  {
  }

  /** After an accepted submission, judging begins exactly when the number of
      pending submissions has reached the number of non-judges (and that is
      not zero); then the selected link is one of the pending submissions,
      the one at index floor(rand * n) of their key order. Otherwise the
      round stays in the submitting phase with nothing selected anew. */
  lemma SubmitLinkJudging(s: Snapshot, socketId: Id, link: string, parse: string -> Option<Url>,
                          decode: string -> Option<string>, now: int, rand: real)
    requires WellKeyed(s) && 0.0 <= rand < 1.0
    requires socketId in s.players && !s.players[socketId].isJudge && s.gamePhase == Submitting
    requires IsValidWikipediaUrl(parse(link))
    ensures var o := SubmitLink(s, socketId, link, parse, decode, now, rand);
      && o.result.Success?
      && (o.result.value.movedToJudging <==>
            |NonJudgeSet(s.players)| > 0 && |o.after.submissions| == |NonJudgeSet(s.players)|)
      && (o.result.value.movedToJudging ==>
            && o.after.gamePhase == Judging
            && |o.after.submissionIds| > 0
            && o.after.selectedPlayer == Some(o.after.submissionIds[RandomIndex(rand, |o.after.submissionIds|)])
            && o.after.selectedPlayer.value in o.after.submissions
            && o.after.selectedLink == Some(o.after.submissions[o.after.selectedPlayer.value]))
      && (!o.result.value.movedToJudging ==>
            o.after.gamePhase == Submitting && o.after.selectedPlayer == s.selectedPlayer
            && o.after.selectedLink == s.selectedLink)
  {
    var title := ExtractWikipediaTitle(parse(link), decode);
    var subs := s.submissions[socketId := Submission(link, title, now)];
    PutKeyOrder(s.submissionIds, s.submissions.Keys, socketId);
    KeyOrderLength(Put(s.submissionIds, socketId), subs.Keys);
    NonJudgeCount(s.playerIds, s.players);
  }

  /** When only non-judges have pending submissions, judging begins exactly
      when every non-judge has submitted. */
  lemma SubmitLinkJudgingWhenAllIn(s: Snapshot, socketId: Id, link: string, parse: string -> Option<Url>,
                                   decode: string -> Option<string>, now: int, rand: real)
    requires WellKeyed(s) && 0.0 <= rand < 1.0
    requires socketId in s.players && !s.players[socketId].isJudge && s.gamePhase == Submitting
    requires IsValidWikipediaUrl(parse(link))
    requires s.submissions.Keys <= NonJudgeSet(s.players)
    ensures var o := SubmitLink(s, socketId, link, parse, decode, now, rand);
      o.result.value.movedToJudging <==> NonJudgeSet(s.players) != {} && o.after.submissions.Keys == NonJudgeSet(s.players)
  {
    SubmitLinkAccepted(s, socketId, link, parse, decode, now, rand);
    SubmitLinkJudging(s, socketId, link, parse, decode, now, rand);
    var o := SubmitLink(s, socketId, link, parse, decode, now, rand);
    var keys := o.after.submissions.Keys;
    var nj := NonJudgeSet(s.players);
    assert keys <= nj;
    assert |keys| == |o.after.submissions|;
    if |keys| == |nj| {
      SubsetOfSameSize(keys, nj);
    }
  }

  /** Once more submissions are pending than there are non-judges (a judge
      who submitted before becoming judge keeps its link), no accepted
      submission starts judging: the round is stuck until a new one starts. */
  lemma SubmitLinkStuck(s: Snapshot, socketId: Id, link: string, parse: string -> Option<Url>,
                        decode: string -> Option<string>, now: int, rand: real)
    requires WellKeyed(s) && 0.0 <= rand < 1.0
    requires socketId in s.players && !s.players[socketId].isJudge && s.gamePhase == Submitting
    requires IsValidWikipediaUrl(parse(link))
    requires |s.submissions| > |NonJudgeSet(s.players)|
    ensures var o := SubmitLink(s, socketId, link, parse, decode, now, rand);
      o.result.Success? && !o.result.value.movedToJudging && o.after.gamePhase == Submitting
  {
    SubmitLinkJudging(s, socketId, link, parse, decode, now, rand);
    var o := SubmitLink(s, socketId, link, parse, decode, now, rand);
    var before, after := s.submissions.Keys, o.after.submissions.Keys;
    assert after == before + (after - before) && before * (after - before) == {};
    assert |before| <= |after|;
    assert |s.submissions| == |before| && |o.after.submissions| == |after|;
  }

  /** A subset as large as its superset is the superset. */
  lemma SubsetOfSameSize(a: set<Id>, b: set<Id>)
    requires a <= b && |a| == |b|
    ensures a == b
  {
    assert b == a + (b - a) && a * (b - a) == {};
    assert |b - a| == 0;
    assert b - a == {};
  }

  /** A room of three in the submitting phase of round 1: `a` and `b` are
      not judge, `c` is the judge and has a pending submission (it submitted
      before the previous judge left). */
  function EarlyJudgingRoom(avatar: Avatar, sub: Submission): Snapshot
  {
    var players := map["a" := Player("A", 0, false, avatar, 0), "b" := Player("B", 0, false, avatar, 0),
                        "c" := Player("C", 0, true, avatar, 0)];
    Snapshot(players, ["a", "b", "c"], map["c" := sub], ["c"], None, None, Submitting, 1, [], Settings(8, 60, 1, 1))
  }

  lemma EarlyJudgingRoomConsistent(avatar: Avatar, sub: Submission)
    ensures Consistent(EarlyJudgingRoom(avatar, sub))
  {
    var s := EarlyJudgingRoom(avatar, sub);
    assert SoleJudge(s.players, "c");
    assert Distinct(["a", "b", "c"]);
    assert KeyOrder(["c"], s.submissions.Keys);
  }

  lemma EarlyJudgingRoomNonJudges(avatar: Avatar, sub: Submission)
    ensures NonJudgeIds(EarlyJudgingRoom(avatar, sub).playerIds, EarlyJudgingRoom(avatar, sub).players) == ["a", "b"]
  {
    var p := EarlyJudgingRoom(avatar, sub).players;
    assert ["a", "b", "c"][1..] == ["b", "c"] && ["b", "c"][1..] == ["c"] && ["c"][1..] == [];
    assert NonJudgeIds(["c"], p) == [];
    assert NonJudgeIds(["b", "c"], p) == ["b"];
  }

  /** As written, judging can begin before every non-judge has submitted: a
      player who submitted and then became judge (when the previous judge
      left) still counts among the pending submissions. Here the judge `c`
      has a pending link, `a` submits, `b` has not, and judging begins. */
  lemma EarlyJudgingExample(link: string, parse: string -> Option<Url>, decode: string -> Option<string>,
                            avatar: Avatar, sub: Submission)
    requires IsValidWikipediaUrl(parse(link))
    ensures var s := EarlyJudgingRoom(avatar, sub);
      && Consistent(s)
      && var o := SubmitLink(s, "a", link, parse, decode, 0, 0.0);
      && o.result.Success? && o.result.value.movedToJudging
      && "b" in NonJudgeSet(s.players) && "b" !in o.after.submissions
  {
    var s := EarlyJudgingRoom(avatar, sub);
    EarlyJudgingRoomConsistent(avatar, sub);
    EarlyJudgingRoomNonJudges(avatar, sub);
    assert Put(["c"], "a") == ["c", "a"];
    assert AllSubmitted(s.playerIds, s.players, ["c", "a"]);
  }

  // ---------------------------------------------------------- judgeGuess

  /** The guess can be scored: the requester is the judge, the phase is
      judging, the guessed id is a player, and so is the selected submitter. */
  ghost predicate CanGuess(s: Snapshot, judgeId: Id, guessedPlayerId: Id)
  {
    && judgeId in s.players && s.players[judgeId].isJudge
    && s.gamePhase == Judging
    && guessedPlayerId in s.players
    && s.selectedPlayer.Some? && s.selectedPlayer.value in s.players
  }

  /** `judgeGuess`: a correct guess gives the judge and the selected
      submitter `pointsForCorrect` each; a wrong one gives only the submitter
      `pointsForFooling`. One history entry records the round and the phase
      becomes scoring. If the selected submitter has left, the guess is
      refused and nothing changes. */
  function JudgeGuess(s: Snapshot, judgeId: Id, guessedPlayerId: Id, now: int): (o: Outcome<Result<RoundPayload, GameError>>)
    requires Consistent(s)
    ensures o.result.Failure? ==> o.after == s
    ensures o.result.Success? ==>
      && CanGuess(s, judgeId, guessedPlayerId)
      && o.result.value.wasCorrect == (guessedPlayerId == s.selectedPlayer.value)
      && o.after.gamePhase == Scoring && |o.after.gameHistory| == |s.gameHistory| + 1
      && o.after.players.Keys == s.players.Keys && o.after.playerIds == s.playerIds
  {
    if judgeId !in s.players || !s.players[judgeId].isJudge then Outcome(Failure(NotJudgeToGuess), s)
    else if s.gamePhase != Judging then Outcome(Failure(NotJudging), s)
    else if guessedPlayerId !in s.players then Outcome(Failure(InvalidGuess), s)
    else if s.selectedPlayer.value !in s.players then Outcome(Failure(SubmitterGone), s)
    else
      var c := s.selectedPlayer.value;
      var wasCorrect := guessedPlayerId == c;
      var pc, pf := s.settings.pointsForCorrect, s.settings.pointsForFooling;
      var players := if wasCorrect then AddScore(AddScore(s.players, judgeId, pc), c, pc) else AddScore(s.players, c, pf);
      var scoreChanges := if wasCorrect then map[judgeId := pc, c := pc] else map[c := pf];
      var entry := HistoryEntry(s.roundNumber, players[judgeId].name, s.selectedLink.value, players[c].name,
                                players[guessedPlayerId].name, wasCorrect, scoreChanges, now);
      Outcome(
        Success(RoundPayload(s.roundNumber, players[guessedPlayerId].name, players[c].name, wasCorrect,
                             s.selectedLink.value, scoreChanges,
                             SubmissionViews(s.submissionIds, s.submissions, players))),
        s.(players := players, gameHistory := s.gameHistory + [entry], gamePhase := Scoring))
  }

  /** Scoring a guess only changes scores, so it keeps the invariant. */
  lemma JudgeGuessKeepsConsistent(s: Snapshot, judgeId: Id, guessedPlayerId: Id, now: int)
    requires Consistent(s)
    ensures Consistent(JudgeGuess(s, judgeId, guessedPlayerId, now).after)
  {
    var o := JudgeGuess(s, judgeId, guessedPlayerId, now);
    if o.result.Success? {
      var j :| SoleJudge(s.players, j);
      assert SoleJudge(o.after.players, j);
    }
  }

  /** The refusals of a guess, in the order they are checked; a refused
      guess changes nothing. */
  lemma JudgeGuessRefusals(s: Snapshot, judgeId: Id, guessedPlayerId: Id, now: int)
    requires Consistent(s)
    ensures var o := JudgeGuess(s, judgeId, guessedPlayerId, now);
      && (o.result.Success? <==> CanGuess(s, judgeId, guessedPlayerId))
      && (judgeId !in s.players || !s.players[judgeId].isJudge ==> o.result == Failure(NotJudgeToGuess))
      && (judgeId in s.players && s.players[judgeId].isJudge && s.gamePhase != Judging ==>
            o.result == Failure(NotJudging))
      && ((judgeId in s.players && s.players[judgeId].isJudge && s.gamePhase == Judging
           && guessedPlayerId !in s.players) ==> o.result == Failure(InvalidGuess))
      && (o.result.Failure? ==> o.after == s)
  {
  }

  /** How a scored guess changes the scores: only the judge's and the
      selected submitter's scores change, by `pointsForCorrect` each for a
      correct guess and by `pointsForFooling` for the submitter alone for a
      wrong one (a judge who is also the selected submitter gets both
      amounts). */
  lemma JudgeGuessScores(s: Snapshot, judgeId: Id, guessedPlayerId: Id, now: int)
    requires Consistent(s) && CanGuess(s, judgeId, guessedPlayerId)
    ensures var o := JudgeGuess(s, judgeId, guessedPlayerId, now);
      var p := o.after.players;
      var c := s.selectedPlayer.value;
      var correct := guessedPlayerId == c;
      var pc, pf := s.settings.pointsForCorrect, s.settings.pointsForFooling;
      && p.Keys == s.players.Keys
      && (forall k :: k in p ==> p[k] == s.players[k].(score := p[k].score))
      && (forall k :: k in p && k != judgeId && k != c ==> p[k] == s.players[k])
      && (correct && judgeId != c ==>
            p[judgeId].score == s.players[judgeId].score + pc && p[c].score == s.players[c].score + pc)
      && (!correct && judgeId != c ==>
            p[judgeId].score == s.players[judgeId].score && p[c].score == s.players[c].score + pf)
      && (judgeId == c ==> p[c].score == s.players[c].score + (if correct then 2 * pc else pf))
  {
  }

  /** The score changes a scored guess reports: `pointsForCorrect` for the
      judge and the submitter after a correct guess, `pointsForFooling` for
      the submitter alone after a wrong one. */
  lemma JudgeGuessScoreChanges(s: Snapshot, judgeId: Id, guessedPlayerId: Id, now: int)
    requires Consistent(s) && CanGuess(s, judgeId, guessedPlayerId)
    ensures var o := JudgeGuess(s, judgeId, guessedPlayerId, now);
      var c := s.selectedPlayer.value;
      var correct := guessedPlayerId == c;
      var pc, pf := s.settings.pointsForCorrect, s.settings.pointsForFooling;
      && o.result.Success? && o.result.value.wasCorrect == correct
      && (correct ==> o.result.value.scoreChanges.Keys == {judgeId, c})
      && (!correct ==> o.result.value.scoreChanges == map[c := pf])
      && (forall k :: k in o.result.value.scoreChanges ==> o.result.value.scoreChanges[k] == if correct then pc else pf)
  {
  }

  /** A scored guess appends exactly one history entry, for the current
      round, naming the judge, the selected link, its submitter and the
      guessed player; the phase becomes scoring and the submissions, round
      number and settings stay. */
  lemma JudgeGuessRecords(s: Snapshot, judgeId: Id, guessedPlayerId: Id, now: int)
    requires Consistent(s) && CanGuess(s, judgeId, guessedPlayerId)
    ensures var o := JudgeGuess(s, judgeId, guessedPlayerId, now);
      var c := s.selectedPlayer.value;
      && o.result.Success?
      && |o.after.gameHistory| == |s.gameHistory| + 1
      && o.after.gameHistory[..|s.gameHistory|] == s.gameHistory
      && var e := o.after.gameHistory[|s.gameHistory|];
      && e == HistoryEntry(s.roundNumber, s.players[judgeId].name, s.selectedLink.value, s.players[c].name,
                           s.players[guessedPlayerId].name, guessedPlayerId == c, o.result.value.scoreChanges, now)
      && o.after.gamePhase == Scoring
      && o.after == s.(players := o.after.players, gameHistory := o.after.gameHistory, gamePhase := Scoring)
      && o.after.submissions == s.submissions && o.after.submissionIds == s.submissionIds
      && o.after.selectedLink == s.selectedLink && o.after.selectedPlayer == s.selectedPlayer
      && o.after.roundNumber == s.roundNumber && o.after.settings == s.settings
      && o.result.value.roundNumber == s.roundNumber
      && o.result.value.judgeGuess == s.players[guessedPlayerId].name
      && o.result.value.correctPlayer == s.players[c].name
      && o.result.value.selectedLink == s.selectedLink.value
      && o.result.value.allSubmissions == SubmissionViews(s.submissionIds, s.submissions, o.after.players)
      && |o.result.value.allSubmissions| == |s.submissionIds|
  {
  }

  // ------------------------------------------------------ updateSettings

  /** `updateSettings`: the supplied fields override the current ones. */
  function UpdateSettings(s: Snapshot, patch: SettingsPatch): (o: Outcome<Settings>)
    ensures o.result == Merge(s.settings, patch)
    ensures o.after.settings == o.result && o.after.(settings := s.settings) == s
    ensures Merge(o.result, patch) == o.result
  {
    var settings := Merge(s.settings, patch);
    Outcome(settings, s.(settings := settings))
  }

  /** Changing the settings keeps the invariant and changes nothing else. */
  lemma UpdateSettingsEffect(s: Snapshot, patch: SettingsPatch)
    requires Consistent(s)
    ensures var o := UpdateSettings(s, patch);
      && Consistent(o.after) && o.result == Merge(s.settings, patch) && o.after.settings == o.result
      && o.after.(settings := s.settings) == s
      && UpdateSettings(o.after, patch).after == o.after
  {
    MergeIdempotent(s.settings, patch);
  }

  // ------------------------------------------------ resetGameKeepPlayers

  /** Every player with score 0 and no judge flag. */
  function Zeroed(players: map<Id, Player>): (r: map<Id, Player>)
    ensures r.Keys == players.Keys
    ensures forall k :: k in r ==> r[k] == players[k].(score := 0, isJudge := false)
  {
    map k | k in players :: players[k].(score := 0, isJudge := false)
  }

  /** `resetGameKeepPlayers`: scores and judge flags are cleared, then
      `assignRandomJudge` picks the player at index floor(rand * n) of the
      key order, the round state and history are cleared, and the answer is
      `getJudgeId()`. */
  function ResetGameKeepPlayers(s: Snapshot, rand: real): (o: Outcome<Option<Id>>)
    requires WellKeyed(s) && 0.0 <= rand < 1.0
    ensures o.after.players.Keys == s.players.Keys && o.after.settings == s.settings
    ensures o.after.gamePhase == Lobby && o.after.roundNumber == 0 && o.after.gameHistory == []
    ensures o.after.submissions == map[]
    ensures forall k :: k in o.after.players ==> o.after.players[k].score == 0
    ensures o.result.Some? ==> o.result.value in o.after.players && o.after.players[o.result.value].isJudge
  {
    var zeroed := Zeroed(s.players);
    var players := if s.playerIds == [] then zeroed else WithSoleJudge(zeroed, s.playerIds[RandomIndex(rand, |s.playerIds|)]);
    Outcome(FirstJudge(s.playerIds, players),
            s.(players := players, submissions := map[], submissionIds := [], selectedLink := None,
               selectedPlayer := None, gamePhase := Lobby, roundNumber := 0, gameHistory := []))
  }

  /** A reset keeps every player with score 0, makes the randomly picked
      player the only judge and answers its id (none for an empty room),
      clears the round state and the history, and keeps the settings and
      the invariant. */
  lemma ResetGameKeepPlayersEffect(s: Snapshot, rand: real)
    requires Consistent(s) && 0.0 <= rand < 1.0
    ensures var o := ResetGameKeepPlayers(s, rand);
      && Consistent(o.after)
      && o.after.players.Keys == s.players.Keys && o.after.playerIds == s.playerIds
      && (forall k :: k in o.after.players ==> o.after.players[k] == s.players[k].(score := 0, isJudge := o.result == Some(k)))
      && (o.result.None? <==> s.players == map[])
      && (o.result.Some? ==> SoleJudge(o.after.players, o.result.value)
                             && o.result.value == s.playerIds[RandomIndex(rand, |s.playerIds|)])
      && o.after == EmptyRoom(s.settings).(players := o.after.players, playerIds := s.playerIds)
  {
    var o := ResetGameKeepPlayers(s, rand);
    KeyOrderEmpty(s.playerIds, s.players.Keys);
    if s.playerIds != [] {
      var pick := s.playerIds[RandomIndex(rand, |s.playerIds|)];
      FirstJudgeIsSoleJudge(s.playerIds, o.after.players, pick);
    }
  }
}

=== FILE: game_state.dfy ===
/** The round engine (backend/game/gameState.js) as the object the server
    keeps: one in-memory store of players, pending submissions, the selected
    link, the phase, the round counter, the settings and the history, changed
    in place by commands that check their preconditions first. Each command
    is proved to keep the invariant and to leave the state that the
    transition of the same name in module Engine computes; what the commands
    promise is proved there.

    The object's fields are kept together in one record-valued field,
    `state`, and each statement of a command replaces the fields it writes
    (`state := state.(gamePhase := Judging)`), in the order the source writes
    them.

    The foreign inputs of a command are its parameters: `rand` stands for the
    value `Math.random()` returned (a real in [0, 1)), `now` for `Date.now()`,
    and `parse` and `decode` for the `URL` constructor and
    `decodeURIComponent`. */
module Game {
  import opened Wrappers
  import opened Js
  import opened ObjectKeys
  import opened Utils
  import opened GameTypes
  import Engine
  import Selectors

  class GameState {
    /** The defaults of the settings module. */
    const defaults: Settings

    /** players, Object.keys(players), submissions, Object.keys(submissions),
        selectedLink, selectedPlayer, gamePhase, roundNumber, gameHistory,
        settings. */
    var state: Snapshot

    ghost predicate Valid()
      reads this
    {
      Consistent(state)
    }

    constructor (defaults: Settings)
      ensures Valid()
      ensures this.defaults == defaults && state == Engine.EmptyRoom(defaults)
    {
      this.defaults := defaults;
      state := Engine.EmptyRoom(defaults);
      new;
      ResetAll();
    }

    /** `resetAll`: lobby defaults, settings included. */
    method ResetAll()
      modifies this
      ensures Valid() && state == Engine.EmptyRoom(defaults)
    {
      state := state.(players := map[], playerIds := []);
      state := state.(submissions := map[], submissionIds := []);
      state := state.(selectedLink := None, selectedPlayer := None);
      state := state.(gamePhase := Lobby);
      state := state.(roundNumber := 0);
      state := state.(gameHistory := []);
      state := state.(settings := defaults);
    }

    /** `getJudgeId`: the first judge in key order, or null. */
    method GetJudgeId() returns (r: Option<Id>)
      requires KeyOrder(state.playerIds, state.players.Keys)
      ensures r == FirstJudge(state.playerIds, state.players)
      ensures r.Some? ==> r.value in state.players && state.players[r.value].isJudge
      ensures r.None? ==> forall k :: k in state.players ==> !state.players[k].isJudge
    {
      var ids, players := state.playerIds, state.players;
      var i := 0;
      while i < |ids|
        invariant 0 <= i <= |ids|
        invariant FirstJudge(ids[i..], players) == FirstJudge(ids, players)
      {
        assert ids[i..][0] == ids[i] && ids[i..][1..] == ids[i + 1..];
        if players[ids[i]].isJudge {
          return Some(ids[i]);
        }
        i := i + 1;
      }
      return None;
    }

    /** The `forEach` of `assignRandomJudge`: every judge flag is cleared,
        in key order; nothing else changes. */
    method ClearJudges()
      requires KeyOrder(state.playerIds, state.players.Keys)
      modifies this
      ensures state == old(state).(players := state.players)
      ensures state.players.Keys == old(state.players).Keys
      ensures forall k :: k in state.players ==> state.players[k] == old(state.players)[k].(isJudge := false)
    {
      var ids := state.playerIds;
      var i := 0;
      while i < |ids|
        invariant 0 <= i <= |ids|
        invariant state == old(state).(players := state.players)
        invariant state.players.Keys == old(state.players).Keys
        invariant forall k :: k in state.players ==>
          state.players[k] == if k in ids[..i] then old(state.players)[k].(isJudge := false) else old(state.players)[k]
      {
        var id := ids[i];
        assert id !in ids[..i];
        assert ids[..i + 1] == ids[..i] + [id];
        state := state.(players := state.players[id := state.players[id].(isJudge := false)]);
        i := i + 1;
      }
      assert ids[..i] == ids;
    }

    /** `assignRandomJudge`: clear every judge flag, then make the player at
        index floor(rand * n) of the key order judge; null for an empty room.
        Nothing but the players' judge flags changes. */
    method AssignRandomJudge(rand: real) returns (pick: Option<Id>)
      requires KeyOrder(state.playerIds, state.players.Keys)
      requires 0.0 <= rand < 1.0
      modifies this
      ensures pick.None? <==> old(state.players) == map[]
      ensures pick.None? ==> state == old(state)
      ensures pick.Some? ==> |state.playerIds| > 0 && pick.value == state.playerIds[RandomIndex(rand, |state.playerIds|)]
      ensures pick.Some? ==>
        (pick.value in old(state.players) && state == old(state).(players := WithSoleJudge(old(state.players), pick.value)))
    {
      KeyOrderEmpty(state.playerIds, state.players.Keys);
      if |state.playerIds| == 0 {
        return None;
      }
      ClearJudges();
      var chosen := state.playerIds[RandomIndex(rand, |state.playerIds|)];
      state := state.(players := state.players[chosen := state.players[chosen].(isJudge := true)]);
      pick := Some(chosen);
    }

    /** `ensureJudgeExists`: if nobody is judge, the given player becomes
        judge; the judge's id is returned either way. (The source asks
        `some(isJudge)` and then `find`s the judge; one search answers both.) */
    method EnsureJudgeExists(newPlayerId: Id) returns (judgeId: Id)
      requires KeyOrder(state.playerIds, state.players.Keys)
      requires newPlayerId in state.players
      modifies this
      ensures old(FirstJudge(state.playerIds, state.players)).None? ==>
        judgeId == newPlayerId &&
        state == old(state).(players := old(state.players)[newPlayerId := old(state.players)[newPlayerId].(isJudge := true)])
      ensures old(FirstJudge(state.playerIds, state.players)).Some? ==>
        judgeId == old(FirstJudge(state.playerIds, state.players)).value && state == old(state)
    {
      var existing := GetJudgeId();
      if existing.None? {
        state := state.(players := state.players[newPlayerId := state.players[newPlayerId].(isJudge := true)]);
        judgeId := newPlayerId;
      } else {
        judgeId := existing.value;
      }
    }

    /** `addPlayer`: store a new player record under the socket id (replacing
        any record the id had), with the trimmed name, score 0, a fresh avatar
        and the join time; it becomes judge only if nobody else is. */
    method AddPlayer(socketId: Id, name: string, rColor: real, rIcon: real, now: int) returns (judgeId: Id)
      requires Valid()
      requires 0.0 <= rColor < 1.0 && 0.0 <= rIcon < 1.0
      modifies this
      ensures Valid()
      ensures Engine.Outcome(judgeId, state) ==
        Engine.AddPlayer(old(state), socketId, name, GenerateAvatar(rColor, rIcon), now)
    {
      Engine.AddPlayerKeepsConsistent(state, socketId, name, GenerateAvatar(rColor, rIcon), now);
      PutKeyOrder(state.playerIds, state.players.Keys, socketId);
      state := state.(players := state.players[socketId := Player(Trim(name), 0, false, GenerateAvatar(rColor, rIcon), now)],
                      playerIds := Put(state.playerIds, socketId));
      judgeId := EnsureJudgeExists(socketId);
    }

    /** `removePlayer`: delete the player and its submission; if it was the
        judge and others remain, a random remaining player becomes judge; if
        nobody remains, back to the lobby with the settings kept. */
    method RemovePlayer(socketId: Id, rand: real) returns (r: Engine.Removal)
      requires Valid()
      requires 0.0 <= rand < 1.0
      modifies this
      ensures Valid()
      ensures Engine.Outcome(r, state) == Engine.RemovePlayer(old(state), socketId, rand)
    {
      Engine.RemovePlayerKeepsConsistent(state, socketId, rand);
      ghost var o := Engine.RemovePlayer(state, socketId, rand);
      var wasJudge := socketId in state.players && state.players[socketId].isJudge;
      DeleteKeyOrder(state.playerIds, state.players.Keys, socketId);
      state := state.(players := state.players - {socketId}, playerIds := Delete(state.playerIds, socketId));
      state := state.(submissions := state.submissions - {socketId}, submissionIds := Delete(state.submissionIds, socketId));
      KeyOrderEmpty(state.playerIds, state.players.Keys);
      ghost var s1 := state;

      var newJudgeId: Option<Id> := None;
      if wasJudge && |state.playerIds| > 0 {
        newJudgeId := AssignRandomJudge(rand);
        assert state == s1.(players := WithSoleJudge(s1.players, newJudgeId.value));
      }

      if |state.playerIds| == 0 {
        var kept := state.settings;
        ResetAll();
        state := state.(settings := kept);
      }
      r := Engine.Removal(wasJudge, newJudgeId);
      assert r == o.result;
    }

    /** `startRound`: only the judge may start, and only with at least two
        non-judges; then a fresh round begins. */
    method StartRound(requesterId: Id) returns (r: Result<Engine.RoundStarted, Engine.GameError>)
      requires Valid()
      modifies this
      ensures Valid()
      ensures Engine.Outcome(r, state) == Engine.StartRound(old(state), requesterId)
    {
      if requesterId !in state.players || !state.players[requesterId].isJudge {
        return Failure(Engine.NotJudgeToStart);
      }
      var nonJudges := NonJudgeIds(state.playerIds, state.players);
      if |nonJudges| < 2 {
        return Failure(Engine.TooFewPlayers);
      }
      state := state.(submissions := map[], submissionIds := []);
      state := state.(selectedLink := None, selectedPlayer := None);
      state := state.(gamePhase := Submitting);
      state := state.(roundNumber := state.roundNumber + 1);
      r := Success(Engine.RoundStarted(state.players[requesterId].name, state.roundNumber));
    }

    /** `submitLink`: refused to unknown ids, to the judge, outside the
        submitting phase and for links that are not Wikipedia articles;
        otherwise the link is stored, and judging begins once all have
        submitted. */
    method SubmitLink(socketId: Id, link: string, parse: string -> Option<Url>, decode: string -> Option<string>,
                      now: int, rand: real) returns (r: Result<Engine.Submitted, Engine.GameError>)
      requires Valid()
      requires 0.0 <= rand < 1.0
      modifies this
      ensures Valid()
      ensures Engine.Outcome(r, state) == Engine.SubmitLink(old(state), socketId, link, parse, decode, now, rand)
    {
      Engine.SubmitLinkKeepsConsistent(state, socketId, link, parse, decode, now, rand);
      if socketId !in state.players {
        return Failure(Engine.NotJoined);
      }
      if state.players[socketId].isJudge {
        return Failure(Engine.JudgeCannotSubmit);
      }
      if state.gamePhase != Submitting {
        return Failure(Engine.NotAcceptingSubmissions);
      }
      if !IsValidWikipediaUrl(parse(link)) {
        return Failure(Engine.InvalidLink);
      }

      var title := ExtractWikipediaTitle(parse(link), decode);
      state := state.(submissions := state.submissions[socketId := Submission(link, title, now)],
                      submissionIds := Put(state.submissionIds, socketId));

      var allNonJudges := NonJudgeIds(state.playerIds, state.players);
      var movedToJudging := false;
      if |allNonJudges| > 0 && |state.submissionIds| == |allNonJudges| {
        var randomSubmitter := state.submissionIds[RandomIndex(rand, |state.submissionIds|)];
        state := state.(selectedLink := Some(state.submissions[randomSubmitter]));
        state := state.(selectedPlayer := Some(randomSubmitter));
        state := state.(gamePhase := Judging);
        movedToJudging := true;
      }
      r := Success(Engine.Submitted(title, movedToJudging));
    }

    /** `judgeGuess`: score the judge's guess, record the round in the
        history and move to scoring. */
    method JudgeGuess(judgeId: Id, guessedPlayerId: Id, now: int) returns (r: Result<Engine.RoundPayload, Engine.GameError>)
      requires Valid()
      modifies this
      ensures Valid()
      ensures Engine.Outcome(r, state) == Engine.JudgeGuess(old(state), judgeId, guessedPlayerId, now)
    {
      Engine.JudgeGuessKeepsConsistent(state, judgeId, guessedPlayerId, now);
      if judgeId !in state.players || !state.players[judgeId].isJudge {
        return Failure(Engine.NotJudgeToGuess);
      }
      if state.gamePhase != Judging {
        return Failure(Engine.NotJudging);
      }
      if guessedPlayerId !in state.players {
        return Failure(Engine.InvalidGuess);
      }
      var correctPlayer := state.selectedPlayer.value;
      if correctPlayer !in state.players {
        return Failure(Engine.SubmitterGone);
      }
      var wasCorrect := guessedPlayerId == correctPlayer;
      var pc, pf := state.settings.pointsForCorrect, state.settings.pointsForFooling;
      var scoreChanges: map<Id, int>;
      if wasCorrect {
        state := state.(players := Engine.AddScore(state.players, judgeId, pc));
        state := state.(players := Engine.AddScore(state.players, correctPlayer, pc));
        scoreChanges := map[judgeId := pc, correctPlayer := pc];
      } else {
        state := state.(players := Engine.AddScore(state.players, correctPlayer, pf));
        scoreChanges := map[correctPlayer := pf];
      }

      var players := state.players;
      state := state.(gameHistory := state.gameHistory + [HistoryEntry(
        state.roundNumber, players[judgeId].name, state.selectedLink.value, players[correctPlayer].name,
        players[guessedPlayerId].name, wasCorrect, scoreChanges, now)]);
      state := state.(gamePhase := Scoring);

      var allSubmissions := Engine.SubmissionViews(state.submissionIds, state.submissions, players);
      r := Success(Engine.RoundPayload(
        state.roundNumber, players[guessedPlayerId].name, players[correctPlayer].name, wasCorrect,
        state.selectedLink.value, scoreChanges, allSubmissions));
    }

    /** `updateSettings`: the supplied fields override the current ones. */
    method UpdateSettings(patch: SettingsPatch) returns (s: Settings)
      requires Valid()
      modifies this
      ensures Valid()
      ensures Engine.Outcome(s, state) == Engine.UpdateSettings(old(state), patch)
    {
      Engine.UpdateSettingsEffect(state, patch);
      state := state.(settings := Merge(state.settings, patch));
      s := state.settings;
    }

    /** The `forEach` of `resetGameKeepPlayers`: every player's score goes
        to 0 and its judge flag is cleared, in key order. */
    method ClearScoresAndJudges()
      requires KeyOrder(state.playerIds, state.players.Keys)
      modifies this
      ensures state == old(state).(players := Engine.Zeroed(old(state.players)))
    {
      var ids := state.playerIds;
      var i := 0;
      while i < |ids|
        invariant 0 <= i <= |ids|
        invariant state == old(state).(players := state.players)
        invariant state.players.Keys == old(state.players).Keys
        invariant forall k :: k in state.players ==>
          state.players[k] == if k in ids[..i] then old(state.players)[k].(score := 0, isJudge := false) else old(state.players)[k]
      {
        var id := ids[i];
        assert id !in ids[..i];
        assert ids[..i + 1] == ids[..i] + [id];
        state := state.(players := state.players[id := state.players[id].(score := 0, isJudge := false)]);
        i := i + 1;
      }
      assert ids[..i] == ids;
    }

    /** `resetGameKeepPlayers`: every player stays with score 0, a random
        player becomes the only judge, and the round state and history are
        cleared; the new judge's id is returned, null for an empty room. */
    method ResetGameKeepPlayers(rand: real) returns (r: Option<Id>)
      requires Valid()
      requires 0.0 <= rand < 1.0
      modifies this
      ensures Valid()
      ensures Engine.Outcome(r, state) == Engine.ResetGameKeepPlayers(old(state), rand)
    {
      Engine.ResetGameKeepPlayersEffect(state, rand);
      ClearScoresAndJudges();
      var pick := AssignRandomJudge(rand);
      state := state.(submissions := map[], submissionIds := []);
      state := state.(selectedLink := None, selectedPlayer := None);
      state := state.(gamePhase := Lobby);
      state := state.(roundNumber := 0);
      state := state.(gameHistory := []);
      r := GetJudgeId();
    }

    /** `buildStats`, on the current state; in a consistent state no player
        has more correct guesses than rounds judged, nor more rounds judged
        than there are history entries, nor more entries than rounds. */
    method BuildStats() returns (st: Selectors.Stats)
      requires Valid()
      ensures st == Selectors.BuildStats(state)
      ensures forall i :: 0 <= i < |st.playerStats| ==>
        st.playerStats[i].correctGuesses <= st.playerStats[i].roundsAsJudge <= |state.gameHistory| <= st.totalRounds
    {
      st := Selectors.BuildStats(state);
      Selectors.StatsBounded(state);
    }
  }
}

=== FILE: game_types.dfy ===
/** The records the round engine keeps (players, submissions, history
    entries, settings), a value snapshot of the whole engine state, and the
    invariant every engine command preserves. */
module GameTypes {
  import opened Wrappers
  import opened ObjectKeys
  import opened Utils

  /** A connection (socket) id. */
  type Id = ObjectKeys.Key

  datatype Phase = Lobby | Submitting | Judging | Scoring

  datatype Player = Player(name: string, score: int, isJudge: bool, avatar: Avatar, joinedAt: int)

  /** A pending link of one non-judge player. */
  datatype Submission = Submission(link: string, title: string, submittedAt: int)

  /** One completed round, appended when the judge guesses and never changed. */
  datatype HistoryEntry = HistoryEntry(
    roundNumber: nat,
    judge: string,
    selectedLink: Submission,
    actualSubmitter: string,
    judgeGuess: string,
    wasCorrect: bool,
    scoreChanges: map<Id, int>,
    timestamp: int)

  /** The settings record. `roundTimeLimit` is stored and reported but no
      command reads it. */
  datatype Settings = Settings(maxPlayers: int, roundTimeLimit: int, pointsForCorrect: int, pointsForFooling: int)

  /** The fields an `update-settings` request supplies; absent fields are `None`. */
  datatype SettingsPatch = SettingsPatch(
    maxPlayers: Option<int>,
    roundTimeLimit: Option<int>,
    pointsForCorrect: Option<int>,
    pointsForFooling: Option<int>)

  /** `{ ...settings, ...patch }`: a field the patch supplies wins, every other
      field keeps its value. */
  function Merge(s: Settings, p: SettingsPatch): (r: Settings)
    ensures p.maxPlayers.None? ==> r.maxPlayers == s.maxPlayers
    ensures p.maxPlayers.Some? ==> r.maxPlayers == p.maxPlayers.value
    ensures p.roundTimeLimit.None? ==> r.roundTimeLimit == s.roundTimeLimit
    ensures p.roundTimeLimit.Some? ==> r.roundTimeLimit == p.roundTimeLimit.value
    ensures p.pointsForCorrect.None? ==> r.pointsForCorrect == s.pointsForCorrect
    ensures p.pointsForCorrect.Some? ==> r.pointsForCorrect == p.pointsForCorrect.value
    ensures p.pointsForFooling.None? ==> r.pointsForFooling == s.pointsForFooling
    ensures p.pointsForFooling.Some? ==> r.pointsForFooling == p.pointsForFooling.value
  {
    Settings(
      if p.maxPlayers.Some? then p.maxPlayers.value else s.maxPlayers,
      if p.roundTimeLimit.Some? then p.roundTimeLimit.value else s.roundTimeLimit,
      if p.pointsForCorrect.Some? then p.pointsForCorrect.value else s.pointsForCorrect,
      if p.pointsForFooling.Some? then p.pointsForFooling.value else s.pointsForFooling)
  }

  /** Applying the same patch twice is applying it once, and an empty patch
      changes nothing. */
  lemma MergeIdempotent(s: Settings, p: SettingsPatch)
    ensures Merge(Merge(s, p), p) == Merge(s, p)
    ensures Merge(s, SettingsPatch(None, None, None, None)) == s
  {
  }

  // ---------------------------------------------------------------- judge

  /** `j` is a player, is judge, and no other player is. */
  ghost predicate SoleJudge(players: map<Id, Player>, j: Id)
  {
    && j in players
    && players[j].isJudge
    && forall k :: k in players && players[k].isJudge ==> k == j
  }

  /** Exactly one judge whenever there are players. */
  ghost predicate OneJudge(players: map<Id, Player>)
  {
    players == map[] || exists j :: SoleJudge(players, j)
  }

  /** The players with every judge flag cleared except that of `j`. */
  function WithSoleJudge(players: map<Id, Player>, j: Id): (r: map<Id, Player>)
    requires j in players
    ensures r.Keys == players.Keys
    ensures SoleJudge(r, j)
    ensures forall k :: k in r ==> r[k] == players[k].(isJudge := k == j)
  {
    map k | k in players :: players[k].(isJudge := k == j)
  }

  /** `Object.keys(players).find((id) => players[id].isJudge)`: the first
      judge in key order, if any. */
  function FirstJudge(order: seq<Id>, players: map<Id, Player>): (r: Option<Id>)
    requires forall k :: k in order ==> k in players
    ensures r.Some? ==> r.value in order && players[r.value].isJudge
    ensures r.Some? ==>
      exists i :: 0 <= i < |order| && order[i] == r.value && (forall j :: 0 <= j < i ==> !players[order[j]].isJudge)
    ensures r.None? ==> forall k :: k in order ==> !players[k].isJudge
  {
    if order == [] then None
    else if players[order[0]].isJudge then Some(order[0])
    else FirstJudge(order[1..], players)
  }

  /** When there is exactly one judge, the search finds that judge. */
  lemma FirstJudgeIsSoleJudge(order: seq<Id>, players: map<Id, Player>, j: Id)
    requires KeyOrder(order, players.Keys)
    requires SoleJudge(players, j)
    ensures FirstJudge(order, players) == Some(j)
  {
  }

  /** `Object.keys(players).filter((id) => !players[id].isJudge)`. */
  function NonJudgeIds(order: seq<Id>, players: map<Id, Player>): (r: seq<Id>)
    requires forall k :: k in order ==> k in players
    ensures |r| <= |order|
    ensures forall k :: k in r <==> k in order && !players[k].isJudge
  {
    if order == [] then []
    else (if players[order[0]].isJudge then [] else [order[0]]) + NonJudgeIds(order[1..], players)
  }

  /** The ids of the players who are not judge. */
  function NonJudgeSet(players: map<Id, Player>): set<Id>
  {
    set k | k in players && !players[k].isJudge
  }

  /** Filtering keeps the ids listed once each. */
  lemma {:induction false} NonJudgeIdsDistinct(order: seq<Id>, players: map<Id, Player>)
    requires forall k :: k in order ==> k in players
    requires Distinct(order)
    ensures Distinct(NonJudgeIds(order, players))
  {
    if order != [] {
      var tail := order[1..];
      assert Distinct(tail);
      NonJudgeIdsDistinct(tail, players);
      if !players[order[0]].isJudge {
        var rest := NonJudgeIds(tail, players);
        var r := [order[0]] + rest;
        assert order[0] !in rest by {
          assert order[0] !in tail;
        }
        forall i, j | 0 <= i < j < |r| ensures r[i] != r[j] {
          if i == 0 {
            assert r[j] == rest[j - 1];
          } else {
            assert r[i] == rest[i - 1] && r[j] == rest[j - 1];
          }
        }
      }
    }
  }

  /** The filtered key list is as long as the set of non-judges is large. */
  lemma NonJudgeCount(order: seq<Id>, players: map<Id, Player>)
    requires KeyOrder(order, players.Keys)
    ensures |NonJudgeIds(order, players)| == |NonJudgeSet(players)|
  {
    NonJudgeIdsDistinct(order, players);
    KeyOrderLength(NonJudgeIds(order, players), NonJudgeSet(players));
  }

  /** With exactly one judge, every other player is a non-judge. */
  lemma NonJudgesBesideSoleJudge(players: map<Id, Player>, j: Id)
    requires SoleJudge(players, j)
    ensures |NonJudgeSet(players)| == |players| - 1
  {
    assert NonJudgeSet(players) == players.Keys - {j};
    assert |players.Keys| == |players|;
  }

  // ------------------------------------------------------------ snapshot

  /** The engine's fields as one value: what the projections read. */
  datatype Snapshot = Snapshot(
    players: map<Id, Player>,
    playerIds: seq<Id>,
    submissions: map<Id, Submission>,
    submissionIds: seq<Id>,
    selectedLink: Option<Submission>,
    selectedPlayer: Option<Id>,
    gamePhase: Phase,
    roundNumber: nat,
    gameHistory: seq<HistoryEntry>,
    settings: Settings)

  /** The key lists are the maps' `Object.keys`. */
  ghost predicate WellKeyed(s: Snapshot)
  {
    KeyOrder(s.playerIds, s.players.Keys) && KeyOrder(s.submissionIds, s.submissions.Keys)
  }

  /** The invariant of the round engine.
      - exactly one judge while anyone is in the room;
      - every pending submission belongs to a current player;
      - a link and its submitter are selected exactly in judging and scoring;
      - an empty room is in the lobby, and the lobby has no submissions,
        no rounds and no history;
      - at most one history entry per round, none yet for a round still
        being played. */
  ghost predicate Consistent(s: Snapshot)
  {
    && WellKeyed(s)
    && s.submissions.Keys <= s.players.Keys
    && OneJudge(s.players)
    && (s.selectedPlayer.Some? <==> s.gamePhase == Judging || s.gamePhase == Scoring)
    && (s.selectedLink.Some? <==> s.selectedPlayer.Some?)
    && (s.players == map[] ==> s.gamePhase == Lobby)
    && (s.gamePhase == Lobby ==> s.submissions == map[] && s.roundNumber == 0 && s.gameHistory == [])
    && |s.gameHistory| <= s.roundNumber
    && (s.gamePhase == Submitting || s.gamePhase == Judging ==> |s.gameHistory| < s.roundNumber)
  }
}

=== FILE: js.dfy ===
/** The JavaScript built-ins the game server relies on, written out so that
    their edge cases are explicit: `String.prototype.trim`, `includes`,
    `split(sep)[1]`, `replace(/c/g, d)`, `toLowerCase`, the UTF-16 `length`
    of a string, and `Math.floor(Math.random() * n)`. */
module Js {
  import opened Wrappers

  // ---------------------------------------------------------------- trim

  /** ECMAScript WhiteSpace and LineTerminator code points, the set `trim` strips. */
  predicate IsWhiteSpace(c: char)
  {
    || c == '\t' || c == '\n' || c == '\U{000B}' || c == '\U{000C}' || c == '\r'
    || c == ' ' || c == '\U{00A0}' || c == '\U{1680}'
    || ('\U{2000}' <= c <= '\U{200A}')
    || c == '\U{2028}' || c == '\U{2029}' || c == '\U{202F}' || c == '\U{205F}'
    || c == '\U{3000}' || c == '\U{FEFF}'
  }

  /** The index of the first character of `s` at or after `i` that is not
      white space, or `|s|` when there is none. */
  function SkipLeading(s: string, i: nat): (r: nat)
    requires i <= |s|
    decreases |s| - i
    ensures i <= r <= |s|
    ensures forall k :: i <= k < r ==> IsWhiteSpace(s[k])
    ensures r < |s| ==> !IsWhiteSpace(s[r])
  {
    if i < |s| && IsWhiteSpace(s[i]) then SkipLeading(s, i + 1) else i
  }

  /** The index just past the last character of `s[lo..j]` that is not white
      space, or `lo` when there is none. */
  function SkipTrailing(s: string, lo: nat, j: nat): (r: nat)
    requires lo <= j <= |s|
    decreases j
    ensures lo <= r <= j
    ensures forall k :: r <= k < j ==> IsWhiteSpace(s[k])
    ensures r > lo ==> !IsWhiteSpace(s[r - 1])
  {
    if j > lo && IsWhiteSpace(s[j - 1]) then SkipTrailing(s, lo, j - 1) else j
  }

  /** `s.trim()`: the slice between the leading and the trailing white space. */
  function Trim(s: string): (r: string)
    ensures |r| <= |s|
    ensures r == [] || (!IsWhiteSpace(r[0]) && !IsWhiteSpace(r[|r| - 1]))
  {
    var a := SkipLeading(s, 0);
    s[a..SkipTrailing(s, a, |s|)]
  }

  /** What `trim` promises: the result is the slice of `s` left after removing
      white space at both ends, and it neither starts nor ends with white space. */
  lemma TrimIsStrippedSlice(s: string)
    ensures exists i ::
      && IsAt(s, Trim(s), i)
      && (forall k :: 0 <= k < i ==> IsWhiteSpace(s[k]))
      && (forall k :: i + |Trim(s)| <= k < |s| ==> IsWhiteSpace(s[k]))
    ensures Trim(s) == [] || (!IsWhiteSpace(Trim(s)[0]) && !IsWhiteSpace(Trim(s)[|Trim(s)| - 1]))
  {
    var i := SkipLeading(s, 0);
    var j := SkipTrailing(s, i, |s|);
    assert Trim(s) == s[i..j];
    assert IsAt(s, Trim(s), i);
  }

  /** Trimming twice is trimming once: the name the join handler checks is
      exactly the name `addPlayer` stores after trimming it again. */
  lemma TrimIdempotent(s: string)
    ensures Trim(Trim(s)) == Trim(s)
  {
    TrimIsStrippedSlice(s);
    TrimUnpadded(Trim(s));
  }

  /** A string with no white space at either end is its own trim. */
  lemma TrimUnpadded(s: string)
    requires s == [] || (!IsWhiteSpace(s[0]) && !IsWhiteSpace(s[|s| - 1]))
    ensures Trim(s) == s
  {
    if s != [] {
      assert SkipLeading(s, 0) == 0;
      assert SkipTrailing(s, 0, |s|) == |s|;
    }
    assert s[0..|s|] == s;
  }

  // ------------------------------------------------------------ includes

  /** `sub` occurs in `s` starting at index `i`. */
  predicate IsAt(s: string, sub: string, i: int)
  {
    0 <= i && i + |sub| <= |s| && s[i..i + |sub|] == sub
  }

  /** The first index at or after `from` where `sub` occurs, scanning left to right. */
  function IndexFrom(s: string, sub: string, from: nat): (r: Option<nat>)
    decreases |s| - from
    ensures r.Some? ==> from <= r.value && IsAt(s, sub, r.value)
    ensures r.Some? ==> forall j :: from <= j < r.value ==> !IsAt(s, sub, j)
    ensures r.None? ==> forall j :: from <= j ==> !IsAt(s, sub, j)
  {
    if from + |sub| > |s| then None
    else if s[from..from + |sub|] == sub then Some(from)
    else IndexFrom(s, sub, from + 1)
  }

  /** `s.indexOf(sub)`, as an option. */
  function IndexOf(s: string, sub: string): Option<nat>
  {
    IndexFrom(s, sub, 0)
  }

  /** `s.includes(sub)`: true exactly when `sub` occurs somewhere in `s`. */
  function Includes(s: string, sub: string): (b: bool)
    ensures b <==> exists i :: IsAt(s, sub, i)
  {
    IndexOf(s, sub).Some?
  }

  /** For a one-character needle, `includes` is sequence membership. */
  lemma IncludesChar(s: string, c: char)
    ensures Includes(s, [c]) <==> c in s
  {
    if c in s {
      var i :| 0 <= i < |s| && s[i] == c;
      assert s[i..i + 1] == [c];
      assert IsAt(s, [c], i);
    }
    if Includes(s, [c]) {
      var i :| IsAt(s, [c], i);
      assert s[i] == s[i..i + 1][0];
    }
  }

  /** A needle longer than the haystack never occurs. */
  lemma NotIncludesLonger(s: string, sub: string)
    requires |s| < |sub|
    ensures !Includes(s, sub)
  {
  }

  // --------------------------------------------------------------- split

  /** `s.split(sep)[1] || ""`: the piece between the first occurrence of
      `sep` and the next one (or the end), and "" when `sep` does not occur. */
  function SecondPiece(s: string, sep: string): (r: string)
    requires |sep| > 0
    ensures !Includes(r, sep)
    ensures (forall i :: !IsAt(s, sep, i)) ==> r == ""
    ensures forall i :: IsAt(s, sep, i) && (forall k :: 0 <= k < i ==> !IsAt(s, sep, k)) ==>
      var rest := s[i + |sep|..];
      && r <= rest
      && (forall k :: 0 <= k < |r| ==> !IsAt(rest, sep, k))
      && (r == rest || IsAt(rest, sep, |r|))
  {
    match IndexOf(s, sep)
    case None => ""
    case Some(i) =>
      var rest := s[i + |sep|..];
      match IndexOf(rest, sep)
      case None => rest
      case Some(j) =>
        NoOccurrenceInPrefix(rest, sep, j);
        rest[..j]
  }

  /** A needle that does not occur in `s` before index `j` does not occur in `s[..j]`. */
  lemma NoOccurrenceInPrefix(s: string, sub: string, j: nat)
    requires |sub| > 0 && j <= |s|
    requires forall k :: 0 <= k < j ==> !IsAt(s, sub, k)
    ensures !Includes(s[..j], sub)
  {
    forall k | IsAt(s[..j], sub, k) ensures IsAt(s, sub, k) {
      var inPrefix, inWhole := s[..j][k..k + |sub|], s[k..k + |sub|];
      forall m | 0 <= m < |sub| ensures inPrefix[m] == inWhole[m] {
      }
      assert inPrefix == inWhole;
    }
  }

  /** A string that starts with `sep` and contains no further `sep` splits into
      the part after it. */
  lemma SecondPieceAfterPrefix(sep: string, t: string)
    requires |sep| > 0 && !Includes(t, sep)
    ensures SecondPiece(sep + t, sep) == t
  {
    var s := sep + t;
    assert IsAt(s, sep, 0) by { assert s[0..|sep|] == sep; }
    assert IndexOf(s, sep) == Some(0);
    assert s[|sep|..] == t;
  }

  // ------------------------------------------------------------- replace

  /** `s.replace(/from/g, to)` for a one-character pattern. */
  function ReplaceAll(s: string, from: char, to: char): (r: string)
    ensures |r| == |s|
    ensures forall i :: 0 <= i < |s| && s[i] != from ==> r[i] == s[i]
    ensures forall i :: 0 <= i < |s| && s[i] == from ==> r[i] == to
    ensures from != to ==> from !in r
  {
    seq(|s|, i requires 0 <= i < |s| => if s[i] == from then to else s[i])
  }

  // --------------------------------------------------------- toLowerCase

  /** `toLowerCase` restricted to the ASCII letters. */
  function ToLower(s: string): (r: string)
    ensures |r| == |s|
    ensures forall i :: 0 <= i < |s| && 'A' <= s[i] <= 'Z' ==> r[i] as int == s[i] as int + 32
    ensures forall i :: 0 <= i < |s| && !('A' <= s[i] <= 'Z') ==> r[i] == s[i]
  {
    seq(|s|, i requires 0 <= i < |s| =>
      if 'A' <= s[i] <= 'Z' then (s[i] as int + 32) as char else s[i])
  }

  // -------------------------------------------------------------- length

  /** For each code point of `s`, whether it lies above U+FFFF, where UTF-16
      writes it as a surrogate pair. */
  ghost function AstralFlags(s: string): (r: seq<bool>)
    ensures |r| == |s|
  {
    seq(|s|, i requires 0 <= i < |s| => s[i] as int >= 0x1_0000)
  }

  /** `s.length`: the number of UTF-16 code units, so a code point above
      U+FFFF counts twice. */
  function Utf16Length(s: string): (n: nat)
    ensures n == |s| + multiset(AstralFlags(s))[true]
    ensures |s| <= n <= 2 * |s|
  {
    if s == [] then 0
    else
      assert AstralFlags(s) == [s[0] as int >= 0x1_0000] + AstralFlags(s[1..]);
      (if s[0] as int >= 0x1_0000 then 2 else 1) + Utf16Length(s[1..])
  }

  // -------------------------------------------------------------- random

  /** `Math.floor(r * n)` for the value `r` that `Math.random()` returned,
      which lies in [0, 1): always a valid index into a collection of size `n`. */
  function RandomIndex(r: real, n: nat): (i: nat)
    requires 0.0 <= r < 1.0 && n > 0
    ensures i < n
  {
    ScaledBelow(r, n);
    (r * (n as real)).Floor
  }

  /** A value in [0, 1) times n lies in [0, n), and below n when n > 0. */
  lemma {:induction false} ScaledBelow(r: real, n: nat)
    requires 0.0 <= r < 1.0
    ensures 0.0 <= r * (n as real) <= n as real
    ensures n > 0 ==> r * (n as real) < n as real
  {
    if n > 0 {
      ScaledBelow(r, n - 1);
      assert r * (n as real) == r * ((n - 1) as real) + r;
    }
  }
}

=== FILE: object_keys.dfy ===
/** The own-key order of a JavaScript object used as a dictionary.
    `Object.keys(o)` lists string keys in insertion order: assigning to an
    existing key keeps its place, assigning to a new key appends it, and
    `delete` removes it. The game keeps such an order beside each map. */
module ObjectKeys {

  /** Socket ids: the keys are strings that are never array indices. */
  type Key = string

  /** No key is listed twice. */
  ghost predicate Distinct(order: seq<Key>)
  {
    forall i, j :: 0 <= i < j < |order| ==> order[i] != order[j]
  }

  /** `order` lists each key of `keys` exactly once. */
  ghost predicate KeyOrder(order: seq<Key>, keys: set<Key>)
  {
    Distinct(order) && forall k :: k in order <==> k in keys
  }

  /** The key order after `o[k] = v`. */
  function Put(order: seq<Key>, k: Key): (r: seq<Key>)
    ensures forall x :: x in r <==> x in order || x == k
    ensures k in order ==> r == order
    ensures k !in order ==> r == order + [k]
  {
    if k in order then order else order + [k]
  }

  /** The key order after `delete o[k]`: the other keys keep their relative order. */
  function Delete(order: seq<Key>, k: Key): (r: seq<Key>)
    ensures |r| <= |order|
    ensures forall x :: x in r <==> x in order && x != k
    ensures k !in order ==> r == order
    ensures Distinct(order) ==> forall i :: 0 <= i < |order| && order[i] == k ==> r == order[..i] + order[i + 1..]
  {
    if order == [] then []
    else if order[0] == k then
      assert Distinct(order) ==> k !in order[1..] && order[..0] + order[1..] == order[1..];
      Delete(order[1..], k)
    else
      var tail := order[1..];
      assert Distinct(order) ==> Distinct(tail);
      assert forall i :: 1 <= i < |order| ==> [order[0]] + (tail[..i - 1] + tail[i..]) == order[..i] + order[i + 1..];
      assert k !in order ==> [order[0]] + tail == order;
      [order[0]] + Delete(tail, k)
  }

  /** Deleting a key keeps the remaining keys listed once each. */
  lemma {:induction false} DeleteDistinct(order: seq<Key>, k: Key)
    requires Distinct(order)
    ensures Distinct(Delete(order, k))
  {
    if order != [] {
      var tail := order[1..];
      assert Distinct(tail) by {
        forall i, j | 0 <= i < j < |tail| ensures tail[i] != tail[j] {
          assert tail[i] == order[i + 1] && tail[j] == order[j + 1];
        }
      }
      DeleteDistinct(tail, k);
      if order[0] != k {
        var r, rest := Delete(order, k), Delete(tail, k);
        assert order[0] !in tail by {
          forall j | 0 <= j < |tail| ensures tail[j] != order[0] {
            assert tail[j] == order[j + 1];
          }
        }
        assert r[0] == order[0] && r[1..] == rest;
        forall i, j | 0 <= i < j < |r| ensures r[i] != r[j] {
          assert r[j] == r[1..][j - 1];
          if i > 0 {
            assert r[i] == r[1..][i - 1];
          }
        }
      }
    }
  }

  /** The key order of `delete o[k]` is a key order of the remaining keys. */
  lemma DeleteKeyOrder(order: seq<Key>, keys: set<Key>, k: Key)
    requires KeyOrder(order, keys)
    ensures KeyOrder(Delete(order, k), keys - {k})
  {
    DeleteDistinct(order, k);
  }

  /** The key order of `o[k] = v` is a key order of the enlarged key set. */
  lemma PutKeyOrder(order: seq<Key>, keys: set<Key>, k: Key)
    requires KeyOrder(order, keys)
    ensures KeyOrder(Put(order, k), keys + {k})
  {
    if k !in order {
      var r := order + [k];
      forall i, j | 0 <= i < j < |r| ensures r[i] != r[j] {
        if j == |order| {
          assert r[i] == order[i];
        } else {
          assert r[i] == order[i] && r[j] == order[j];
        }
      }
    }
  }

  /** `Object.keys(o).length` is the number of keys. */
  lemma {:induction false} KeyOrderLength(order: seq<Key>, keys: set<Key>)
    requires KeyOrder(order, keys)
    ensures |order| == |keys|
  {
    if order != [] {
      var x := order[0];
      var tail := order[1..];
      assert x !in tail by {
        forall j | 0 <= j < |tail| ensures tail[j] != x {
          assert tail[j] == order[j + 1];
        }
      }
      forall i, j | 0 <= i < j < |tail| ensures tail[i] != tail[j] {
        assert tail[i] == order[i + 1] && tail[j] == order[j + 1];
      }
      assert forall y :: y in tail <==> y in keys - {x} by {
        forall y ensures y in tail <==> y in keys - {x} {
          if y in keys - {x} {
            assert y in order;
            var n :| 0 <= n < |order| && order[n] == y;
            assert n != 0;
            assert tail[n - 1] == y;
          }
        }
      }
      KeyOrderLength(tail, keys - {x});
    } else {
      assert forall y :: y !in keys;
    }
  }

  /** An object has no keys exactly when `Object.keys` is empty. */
  lemma KeyOrderEmpty(order: seq<Key>, keys: set<Key>)
    requires KeyOrder(order, keys)
    ensures order == [] <==> keys == {}
  {
    KeyOrderLength(order, keys);
  }
}

=== FILE: selectors.dfy ===
/** The projections of the engine state (backend/game/selectors.js): the
    view broadcast to every client and the statistics sent on request. They
    read a snapshot of the state and never change it. */
module Selectors {
  import opened ObjectKeys
  import opened Utils
  import opened Wrappers
  import opened GameTypes

  // ------------------------------------------------------------ outbound

  datatype PlayerView = PlayerView(id: Id, name: string, score: int, isJudge: bool, avatar: Avatar, joinedAt: int)

  /** `getPlayersArray`: one entry per key, in key order, each carrying its
      key as `id` and the player's fields unchanged. */
  function PlayersArray(players: map<Id, Player>, order: seq<Id>): (r: seq<PlayerView>)
    requires forall k :: k in order ==> k in players
    ensures |r| == |order|
    ensures forall i :: 0 <= i < |r| ==>
      && r[i].id == order[i]
      && players[r[i].id] == Player(r[i].name, r[i].score, r[i].isJudge, r[i].avatar, r[i].joinedAt)
  {
    seq(|order|, i requires 0 <= i < |order| =>
      var p := players[order[i]];
      PlayerView(order[i], p.name, p.score, p.isJudge, p.avatar, p.joinedAt))
  }

  /** Over the object's own key order, the view lists every player exactly once. */
  lemma PlayersArrayListsEveryPlayerOnce(players: map<Id, Player>, order: seq<Id>)
    requires KeyOrder(order, players.Keys)
    ensures var r := PlayersArray(players, order);
      && |r| == |players|
      && (forall k :: k in players ==> exists i :: 0 <= i < |r| && r[i].id == k)
      && (forall i, j :: 0 <= i < j < |r| ==> r[i].id != r[j].id)
  {
    KeyOrderLength(order, players.Keys);
    var r := PlayersArray(players, order);
    forall k | k in players ensures exists i :: 0 <= i < |r| && r[i].id == k {
      assert k in order;
      var i :| 0 <= i < |order| && order[i] == k;
      assert r[i].id == k;
    }
  }

  datatype OutboundState = OutboundState(
    players: seq<PlayerView>,
    gamePhase: Phase,
    selectedLink: Option<Submission>,
    roundNumber: nat,
    submissionCount: nat,
    totalNonJudges: nat)

  /** `buildOutboundGameState`: the counts are the number of pending
      submissions and the number of non-judge players; phase, selected link
      and round are copied. */
  function BuildOutboundGameState(s: Snapshot): (r: OutboundState)
    requires WellKeyed(s)
    ensures r.players == PlayersArray(s.players, s.playerIds)
    ensures r.submissionCount == |s.submissions|
    ensures r.totalNonJudges == |NonJudgeSet(s.players)|
    ensures r.gamePhase == s.gamePhase && r.selectedLink == s.selectedLink && r.roundNumber == s.roundNumber
  {
    KeyOrderLength(s.submissionIds, s.submissions.Keys);
    NonJudgeCount(s.playerIds, s.players);
    OutboundState(
      PlayersArray(s.players, s.playerIds),
      s.gamePhase,
      s.selectedLink,
      s.roundNumber,
      |s.submissionIds|,
      |NonJudgeIds(s.playerIds, s.players)|)
  }

  /** In a consistent state with players, everyone but the judge is counted
      as a non-judge, and no more submissions are pending than there are players. */
  lemma OutboundCounts(s: Snapshot)
    requires Consistent(s) && s.players != map[]
    ensures BuildOutboundGameState(s).totalNonJudges == |s.players| - 1
    ensures BuildOutboundGameState(s).submissionCount <= |s.players|
  {
    var j :| SoleJudge(s.players, j);
    NonJudgesBesideSoleJudge(s.players, j);
    assert |s.submissions| == |s.submissions.Keys| <= |s.players.Keys| == |s.players| by {
      SubsetCard(s.submissions.Keys, s.players.Keys);
    }
  }

  lemma SubsetCard(a: set<Id>, b: set<Id>)
    requires a <= b
    ensures |a| <= |b|
  {
    assert b == a + (b - a);
  }

  // ---------------------------------------------------------- statistics

  /** The history filters the statistics use, all keyed on player name. */
  datatype Criterion =
    | Involves(name: string)        // submitter or judge
    | JudgedBy(name: string)
    | GuessedRightBy(name: string)
    | FooledJudge(name: string)

  predicate Matches(c: Criterion, e: HistoryEntry)
  {
    match c
    case Involves(n) => e.actualSubmitter == n || e.judge == n
    case JudgedBy(n) => e.judge == n
    case GuessedRightBy(n) => e.judge == n && e.wasCorrect
    case FooledJudge(n) => e.actualSubmitter == n && !e.wasCorrect
  }

  /** `history.filter(...)`: the matching entries, in order. */
  function Filter(h: seq<HistoryEntry>, c: Criterion): (r: seq<HistoryEntry>)
    ensures |r| <= |h|
    ensures forall e :: e in r ==> e in h && Matches(c, e)
    ensures forall e :: e in h && Matches(c, e) ==> e in r
    ensures forall e {:trigger multiset(r)[e]} :: multiset(r)[e] == if Matches(c, e) then multiset(h)[e] else 0
  {
    if h == [] then []
    else
      assert h == [h[0]] + h[1..];
      (if Matches(c, h[0]) then [h[0]] else []) + Filter(h[1..], c)
  }

  /** `history.filter(...).length`. */
  function Count(h: seq<HistoryEntry>, c: Criterion): (n: nat)
    ensures n <= |h|
  {
    |Filter(h, c)|
  }

  /** Pre-filtering by a weaker criterion does not change a count. */
  lemma {:induction false} CountAfterWeakerFilter(h: seq<HistoryEntry>, c: Criterion, d: Criterion)
    requires forall e :: Matches(c, e) ==> Matches(d, e)
    ensures Count(Filter(h, d), c) == Count(h, c)
  {
    if h != [] {
      CountAfterWeakerFilter(h[1..], c, d);
      var fd := Filter(h, d);
      if Matches(d, h[0]) {
        assert fd[0] == h[0] && fd[1..] == Filter(h[1..], d);
      } else {
        assert !Matches(c, h[0]);
        assert fd == Filter(h[1..], d);
      }
    }
  }

  /** A stronger criterion never counts more entries. */
  lemma {:induction false} CountMonotone(h: seq<HistoryEntry>, c: Criterion, d: Criterion)
    requires forall e :: Matches(c, e) ==> Matches(d, e)
    ensures Count(h, c) <= Count(h, d)
  {
    if h != [] {
      CountMonotone(h[1..], c, d);
    }
  }

  datatype PlayerStats = PlayerStats(
    name: string,
    score: int,
    roundsAsJudge: nat,
    correctGuesses: nat,
    timesFooledJudge: nat)

  /** The statistics of one player, computed as the source does (over the
      entries naming the player first). They count exactly the history
      entries that name the player as judge, as a judge who guessed right,
      and as a submitter who fooled the judge. */
  function StatsFor(p: Player, h: seq<HistoryEntry>): (r: PlayerStats)
    ensures r.name == p.name && r.score == p.score
    ensures r.roundsAsJudge == Count(h, JudgedBy(p.name))
    ensures r.correctGuesses == Count(h, GuessedRightBy(p.name))
    ensures r.timesFooledJudge == Count(h, FooledJudge(p.name))
    ensures r.correctGuesses <= r.roundsAsJudge <= |h|
  {
    var mine := Filter(h, Involves(p.name));
    CountAfterWeakerFilter(h, JudgedBy(p.name), Involves(p.name));
    CountAfterWeakerFilter(h, GuessedRightBy(p.name), Involves(p.name));
    CountAfterWeakerFilter(h, FooledJudge(p.name), Involves(p.name));
    CountMonotone(h, GuessedRightBy(p.name), JudgedBy(p.name));
    PlayerStats(
      p.name,
      p.score,
      Count(mine, JudgedBy(p.name)),
      Count(mine, GuessedRightBy(p.name)),
      Count(mine, FooledJudge(p.name)))
  }

  datatype Stats = Stats(totalRounds: nat, gameHistory: seq<HistoryEntry>, playerStats: seq<PlayerStats>)

  /** `buildStats`: the round counter (not the history length) as the number
      of rounds, the history as it is, and one statistics entry per player
      in key order. */
  function BuildStats(s: Snapshot): (r: Stats)
    requires forall k :: k in s.playerIds ==> k in s.players
    ensures r.totalRounds == s.roundNumber && r.gameHistory == s.gameHistory
    ensures |r.playerStats| == |s.playerIds|
    ensures forall i :: 0 <= i < |s.playerIds| ==>
      var p := s.players[s.playerIds[i]];
      && r.playerStats[i].name == p.name
      && r.playerStats[i].score == p.score
      && r.playerStats[i].roundsAsJudge == Count(s.gameHistory, JudgedBy(p.name))
      && r.playerStats[i].correctGuesses == Count(s.gameHistory, GuessedRightBy(p.name))
      && r.playerStats[i].timesFooledJudge == Count(s.gameHistory, FooledJudge(p.name))
  {
    Stats(
      s.roundNumber,
      s.gameHistory,
      seq(|s.playerIds|, i requires 0 <= i < |s.playerIds| => StatsFor(s.players[s.playerIds[i]], s.gameHistory)))
  }

  /** In a consistent state every player's correct guesses are at most the
      rounds they judged, which are at most the entries in the history, which
      are at most the rounds started. */
  lemma StatsBounded(s: Snapshot)
    requires Consistent(s)
    ensures forall i :: 0 <= i < |BuildStats(s).playerStats| ==>
      var st := BuildStats(s).playerStats[i];
      st.correctGuesses <= st.roundsAsJudge <= |s.gameHistory| <= BuildStats(s).totalRounds
  {
    var r := BuildStats(s);
    forall i | 0 <= i < |r.playerStats|
      ensures r.playerStats[i].correctGuesses <= r.playerStats[i].roundsAsJudge <= |s.gameHistory|
    {
      var name := s.players[s.playerIds[i]].name;
      CountMonotone(s.gameHistory, GuessedRightBy(name), JudgedBy(name));
    }
  }
}

=== FILE: socket.dfy ===
/** The socket event handlers (backend/socket/index.js): each validates the
    request and then runs one command of the round engine. The join guard
    (trimmed, non-empty, at most 20 UTF-16 units, not a case-insensitive
    duplicate, room not full) is what keeps player names distinct and the
    room within its capacity; the settings guard admits only the judge; a
    disconnect from a socket that never joined does nothing.

    Each handler is first a transition of a state value (functions `Join`,
    `UpdateSettings`, `ResetGame`, `Disconnect`; `start-round`,
    `submit-link` and `judge-guess` only relay the engine command), whose
    properties are proved here; the class `Server` then runs them against the one `GameState`
    object and keeps the name invariant across every handler. The emitted
    events are not modelled; what a handler answers is its result. */
module Socket {
  import opened Wrappers
  import opened Js
  import opened ObjectKeys
  import opened Utils
  import opened GameTypes
  import Engine
  import Game
  import Selectors

  /** The refusals the guards send back, with their messages. The join
      refusals go out as `join-error`, the settings refusal as `game-error`. */
  datatype Refusal =
    | EmptyName
    | NameTooLong
    | NameTaken
    | GameFull
    | OnlyJudgeSettings
  {
    function Message(): string
    {
      match this
      case EmptyName => "Name cannot be empty"
      case NameTooLong => "Name must be 20 characters or less"
      case NameTaken => "Name already taken"
      case GameFull => "Game is full"
      case OnlyJudgeSettings => "Only judge can change settings"
    }
  }

  /** The longest accepted name, in UTF-16 code units. */
  const MaxNameLength: nat := 20

  /** JavaScript truthiness of an id that may be null: null and "" are false. */
  predicate Truthy(id: Option<Id>)
  {
    id.Some? && id.value != ""
  }

  // ---------------------------------------------------------------- join

  /** `(playerName || '').trim()`: a missing name is the empty name. */
  function JoinName(playerName: Option<string>): (name: string)
    ensures playerName.None? ==> name == ""
    ensures playerName.Some? ==> name == Trim(playerName.value)
  {
    match playerName
    case None => ""
    case Some(n) => Trim(n)
  }

  /** The current names, lower-cased. */
  function LowerNames(players: map<Id, Player>): (r: set<string>)
    ensures forall k :: k in players ==> ToLower(players[k].name) in r
    ensures forall n :: n in r ==> exists k :: k in players && ToLower(players[k].name) == n
  {
    set k | k in players :: ToLower(players[k].name)
  }

  /** The join guard, checks in the handler's order; the accepted name is the
      trimmed one. */
  function CheckJoin(players: map<Id, Player>, maxPlayers: int, playerName: Option<string>): (r: Result<string, Refusal>)
    ensures r.Success? ==> r.value == JoinName(playerName) && r.value != "" && |players| < maxPlayers
  {
    var name := JoinName(playerName);
    if name == "" then Failure(EmptyName)
    else if Utf16Length(name) > MaxNameLength then Failure(NameTooLong)
    else if ToLower(name) in LowerNames(players) then Failure(NameTaken)
    else if |players| >= maxPlayers then Failure(GameFull)
    else Success(name)
  }

  /** A name is free when no player's name equals it ignoring (ASCII) case. */
  ghost predicate NameFree(players: map<Id, Player>, name: string)
  {
    forall k :: k in players ==> ToLower(players[k].name) != ToLower(name)
  }

  /** The join guard accepts exactly a non-empty trimmed name of at most 20
      units that no player has (ignoring case) while the room has fewer than
      `maxPlayers` players; otherwise it names the first check that failed. */
  lemma CheckJoinIff(players: map<Id, Player>, maxPlayers: int, playerName: Option<string>)
    ensures var r := CheckJoin(players, maxPlayers, playerName);
      var name := JoinName(playerName);
      && (r.Success? <==>
            name != "" && Utf16Length(name) <= MaxNameLength && NameFree(players, name) && |players| < maxPlayers)
      && (name == "" ==> r == Failure(EmptyName))
      && (name != "" && Utf16Length(name) > MaxNameLength ==> r == Failure(NameTooLong))
      && (name != "" && Utf16Length(name) <= MaxNameLength && !NameFree(players, name) ==> r == Failure(NameTaken))
      && (name != "" && Utf16Length(name) <= MaxNameLength && NameFree(players, name) && |players| >= maxPlayers ==>
            r == Failure(GameFull))
  {
  }

  /** A missing name and a name of only white space are refused as empty. */
  lemma BlankNameRefused(players: map<Id, Player>, maxPlayers: int, playerName: Option<string>)
    requires playerName.Some? ==> forall i :: 0 <= i < |playerName.value| ==> IsWhiteSpace(playerName.value[i])
    ensures CheckJoin(players, maxPlayers, playerName) == Failure(EmptyName)
  {
    if playerName.Some? {
      TrimIsStrippedSlice(playerName.value);
    }
  }

  /** `join-game`: the guard, then `addPlayer` with the trimmed name; the
      answer is the stored player record. A refused join changes nothing. */
  function Join(s: Snapshot, socketId: Id, playerName: Option<string>, avatar: Avatar, now: int): (o: Engine.Outcome<Result<Player, Refusal>>)
    requires WellKeyed(s)
    ensures o.result.Failure? ==> o.after == s
    ensures o.result.Success? ==>
      && |s.players| < s.settings.maxPlayers
      && o.after.players.Keys == s.players.Keys + {socketId}
      && o.result.value == o.after.players[socketId] && o.result.value.score == 0
  {
    match CheckJoin(s.players, s.settings.maxPlayers, playerName)
    case Failure(e) => Engine.Outcome(Failure(e), s)
    case Success(name) =>
      var added := Engine.AddPlayer(s, socketId, name, avatar, now);
      Engine.Outcome(Success(added.after.players[socketId]), added.after)
  }

  /** A refused join changes nothing; an accepted one is `addPlayer` with the
      checked name, and the record it stores carries exactly that name (the
      second trim inside `addPlayer` changes nothing). */
  lemma JoinEffect(s: Snapshot, socketId: Id, playerName: Option<string>, avatar: Avatar, now: int)
    requires WellKeyed(s)
    ensures var o := Join(s, socketId, playerName, avatar, now);
      var check := CheckJoin(s.players, s.settings.maxPlayers, playerName);
      && (o.result.Failure? <==> check.Failure?)
      && (check.Failure? ==> o.result == Failure(check.error) && o.after == s)
      && (check.Success? ==>
            && o.after == Engine.AddPlayer(s, socketId, JoinName(playerName), avatar, now).after
            && socketId in o.after.players
            && o.result.value == o.after.players[socketId]
            && o.result.value.name == JoinName(playerName)
            && o.result.value.score == 0)
  {
    var check := CheckJoin(s.players, s.settings.maxPlayers, playerName);
    if check.Success? {
      var name := check.value;
      Engine.AddPlayerStores(s, socketId, name, avatar, now);
      assert Trim(name) == name by {
        if playerName.Some? {
          TrimIdempotent(playerName.value);
        }
      }
    }
  }

  /** Player names are pairwise distinct ignoring (ASCII) case. */
  ghost predicate NamesUnique(players: map<Id, Player>)
  {
    forall a, b :: a in players && b in players && a != b ==> ToLower(players[a].name) != ToLower(players[b].name)
  }

  /** Accepted joins keep names distinct ignoring case. */
  lemma JoinKeepsNamesUnique(s: Snapshot, socketId: Id, playerName: Option<string>, avatar: Avatar, now: int)
    requires WellKeyed(s) && NamesUnique(s.players)
    ensures NamesUnique(Join(s, socketId, playerName, avatar, now).after.players)
  {
    var check := CheckJoin(s.players, s.settings.maxPlayers, playerName);
    JoinEffect(s, socketId, playerName, avatar, now);
    if check.Success? {
      CheckJoinIff(s.players, s.settings.maxPlayers, playerName);
      Engine.AddPlayerStores(s, socketId, check.value, avatar, now);
      AddFreeNameKeepsUnique(s.players, Join(s, socketId, playerName, avatar, now).after.players, socketId, check.value);
    }
  }

  /** Storing a record under one id, with a name no player has, keeps names
      distinct when no other record changes. */
  lemma AddFreeNameKeepsUnique(before: map<Id, Player>, after: map<Id, Player>, id: Id, name: string)
    requires NamesUnique(before) && NameFree(before, name)
    requires after.Keys == before.Keys + {id} && after[id].name == name
    requires forall k :: k in after && k != id ==> after[k] == before[k]
    ensures NamesUnique(after)
  {
    forall a, b | a in after && b in after && a != b
      ensures ToLower(after[a].name) != ToLower(after[b].name)
    {
      if a == id {
        assert ToLower(before[b].name) != ToLower(name);
      } else if b == id {
        assert ToLower(before[a].name) != ToLower(name);
      } else {
        assert after[a] == before[a] && after[b] == before[b];
      }
    }
  }

  /** An accepted join needs room for one more player, so joins never take
      the room past `maxPlayers`: a room within its capacity stays within it. */
  lemma JoinWithinCapacity(s: Snapshot, socketId: Id, playerName: Option<string>, avatar: Avatar, now: int)
    requires WellKeyed(s)
    ensures var o := Join(s, socketId, playerName, avatar, now);
      && o.after.settings == s.settings
      && (o.result.Success? ==> |s.players| < s.settings.maxPlayers && |o.after.players| <= s.settings.maxPlayers)
      && (|s.players| <= s.settings.maxPlayers ==> |o.after.players| <= s.settings.maxPlayers)
  {
    var o := Join(s, socketId, playerName, avatar, now);
    if o.result.Success? {
      var p := o.after.players;
      assert |p.Keys| <= |s.players.Keys| + |{socketId}|;
      assert |p| == |p.Keys| && |s.players| == |s.players.Keys|;
    } else {
      assert o.after == s;
    }
  }

  /** A duplicate name is refused however its letters are cased: once "Ann"
      has joined, "aNN" is refused. */
  lemma DuplicateNameExample(s: Snapshot, id: Id)
    requires id in s.players && s.players[id].name == "Ann"
    ensures CheckJoin(s.players, s.settings.maxPlayers, Some("aNN")) == Failure(NameTaken)
  {
    var name := JoinName(Some("aNN"));
    TrimUnpadded("aNN");
    LowerExample();
    assert !NameFree(s.players, name);
    CheckJoinIff(s.players, s.settings.maxPlayers, Some("aNN"));
  }

  lemma LowerExample()
    ensures ToLower("aNN") == ToLower("Ann")
  {
    var typed, stored := ToLower("aNN"), ToLower("Ann");
    assert |typed| == 3 == |stored|;
    assert typed[0] == 'a' == stored[0];
    assert typed[1] == 'n' == stored[1] by { assert 'N' as int + 32 == 'n' as int; }
    assert typed[2] == 'n' == stored[2] by { assert 'N' as int + 32 == 'n' as int; }
  }

  // ------------------------------------------------------ update-settings

  /** `update-settings`: only the judge may change the settings; the answer
      is the merged settings record. */
  function UpdateSettings(s: Snapshot, socketId: Id, patch: SettingsPatch): (o: Engine.Outcome<Result<Settings, Refusal>>)
    ensures o.result.Success? <==> socketId in s.players && s.players[socketId].isJudge
    ensures o.result.Failure? ==> o.after == s
    ensures o.result.Success? ==> o.after.settings == o.result.value && o.after.(settings := s.settings) == s
  {
    if socketId !in s.players || !s.players[socketId].isJudge then Engine.Outcome(Failure(OnlyJudgeSettings), s)
    else
      var u := Engine.UpdateSettings(s, patch);
      Engine.Outcome(Success(u.result), u.after)
  }

  /** A settings request is carried out exactly when it comes from the judge;
      from any other socket it is refused and nothing changes. */
  lemma UpdateSettingsGuard(s: Snapshot, socketId: Id, patch: SettingsPatch)
    ensures var o := UpdateSettings(s, socketId, patch);
      && (o.result.Success? <==> socketId in s.players && s.players[socketId].isJudge)
      && (o.result.Failure? ==> o.result.error == OnlyJudgeSettings && o.after == s)
      && (o.result.Success? ==> o.after == s.(settings := Merge(s.settings, patch)) && o.result.value == o.after.settings)
  {
  }

  // ----------------------------------------------------------- reset-game

  /** `reset-game`: no check of who asks; the answer is the new judge's name,
      or null when the room is empty. */
  function ResetGame(s: Snapshot, socketId: Id, rand: real): (o: Engine.Outcome<Option<string>>)
    requires Consistent(s) && 0.0 <= rand < 1.0
    ensures Consistent(o.after) && o.after.gamePhase == Lobby && o.after.players.Keys == s.players.Keys
    ensures o.result.Some? ==>
      exists k :: k in o.after.players && o.after.players[k].isJudge && o.result.value == s.players[k].name
  {
    var r := Engine.ResetGameKeepPlayers(s, rand);
    Engine.ResetGameKeepPlayersEffect(s, rand);
    Engine.Outcome(if Truthy(r.result) then Some(r.after.players[r.result.value].name) else None, r.after)
  }

  /** Any socket may reset: the result does not depend on who asked, it is
      `resetGameKeepPlayers`, and the name announced is the new sole judge's. */
  lemma ResetGameNoAuthorization(s: Snapshot, a: Id, b: Id, rand: real)
    requires Consistent(s) && 0.0 <= rand < 1.0
    ensures ResetGame(s, a, rand) == ResetGame(s, b, rand)
    ensures var o := ResetGame(s, a, rand);
      var r := Engine.ResetGameKeepPlayers(s, rand);
      && o.after == r.after
      && (o.result.Some? ==> exists j :: SoleJudge(o.after.players, j) && o.result.value == s.players[j].name)
  {
    var r := Engine.ResetGameKeepPlayers(s, rand);
    Engine.ResetGameKeepPlayersEffect(s, rand);
    if Truthy(r.result) {
      assert SoleJudge(r.after.players, r.result.value);
    }
  }

  // ----------------------------------------------------------- disconnect

  /** What a departure announces: who left and, when the judge left and a
      new one was chosen, the new judge's name. */
  datatype Departure = Departure(name: string, newJudge: Option<string>)

  /** `disconnect`: a socket that never joined changes nothing; otherwise
      `removePlayer` runs, and a judge-changed notice names the new judge
      when the judge left and a new one was picked. */
  function Disconnect(s: Snapshot, socketId: Id, rand: real): (o: Engine.Outcome<Option<Departure>>)
    requires Consistent(s) && 0.0 <= rand < 1.0
    ensures socketId !in s.players ==> o.result.None? && o.after == s
    ensures socketId in s.players ==>
      && o.result.Some? && o.result.value.name == s.players[socketId].name
      && o.after.players.Keys == s.players.Keys - {socketId}
      && (o.result.value.newJudge.Some? ==> s.players[socketId].isJudge)
  {
    if socketId !in s.players then Engine.Outcome(None, s)
    else
      var r := Engine.RemovePlayer(s, socketId, rand);
      Engine.RemovePlayerEffect(s, socketId, rand);
      var notice := if r.result.wasJudge && Truthy(r.result.newJudgeId) then Some(r.after.players[r.result.newJudgeId.value].name) else None;
      Engine.Outcome(Some(Departure(s.players[socketId].name, notice)), r.after)
  }

  /** Disconnecting an unknown socket changes nothing. A player's disconnect
      is `removePlayer`; it announces a new judge exactly when the departed
      player was judge and a (non-empty) new judge id came back, and the
      name announced is the new sole judge's. */
  lemma DisconnectEffect(s: Snapshot, socketId: Id, rand: real)
    requires Consistent(s) && 0.0 <= rand < 1.0
    ensures var o := Disconnect(s, socketId, rand);
      var r := Engine.RemovePlayer(s, socketId, rand);
      && (socketId !in s.players ==> o.result.None? && o.after == s)
      && (socketId in s.players ==>
            && o.result == Some(Departure(s.players[socketId].name, o.result.value.newJudge))
            && o.after == r.after
            && (o.result.value.newJudge.Some? <==> s.players[socketId].isJudge && Truthy(r.result.newJudgeId))
            && (o.result.value.newJudge.Some? ==>
                  SoleJudge(o.after.players, r.result.newJudgeId.value)
                  && o.result.value.newJudge.value == s.players[r.result.newJudgeId.value].name))
  {
    if socketId in s.players {
      Engine.RemovePlayerEffect(s, socketId, rand);
      Engine.RemovePlayerKeepsConsistent(s, socketId, rand);
    }
  }

  // --------------------------------------------------------- invariants

  /** No command renames a player: every player after the command was a
      player before, under the same name. */
  ghost predicate NamesKept(before: map<Id, Player>, after: map<Id, Player>)
  {
    forall k :: k in after ==> k in before && after[k].name == before[k].name
  }

  lemma NamesKeptUnique(before: map<Id, Player>, after: map<Id, Player>)
    requires NamesUnique(before) && NamesKept(before, after)
    ensures NamesUnique(after)
  {
  }

  /** Apart from joins, the engine's commands never add or rename a player. */
  lemma RemovePlayerKeepsNames(s: Snapshot, id: Id, rand: real)
    requires Consistent(s) && 0.0 <= rand < 1.0
    ensures NamesKept(s.players, Engine.RemovePlayer(s, id, rand).after.players)
  {
    Engine.RemovePlayerEffect(s, id, rand);
  }

  lemma StartRoundKeepsNames(s: Snapshot, id: Id)
    requires Consistent(s)
    ensures NamesKept(s.players, Engine.StartRound(s, id).after.players)
  {
    Engine.StartRoundEffect(s, id);
  }

  lemma SubmitLinkKeepsNames(s: Snapshot, id: Id, link: string, parse: string -> Option<Url>,
                             decode: string -> Option<string>, now: int, rand: real)
    requires Consistent(s) && 0.0 <= rand < 1.0
    ensures NamesKept(s.players, Engine.SubmitLink(s, id, link, parse, decode, now, rand).after.players)
  {
    Engine.SubmitLinkRefusals(s, id, link, parse, decode, now, rand);
    if Engine.SubmitLink(s, id, link, parse, decode, now, rand).result.Success? {
      Engine.SubmitLinkAccepted(s, id, link, parse, decode, now, rand);
    }
  }

  lemma JudgeGuessKeepsNames(s: Snapshot, id: Id, guessedPlayerId: Id, now: int)
    requires Consistent(s)
    ensures NamesKept(s.players, Engine.JudgeGuess(s, id, guessedPlayerId, now).after.players)
  {
    Engine.JudgeGuessRefusals(s, id, guessedPlayerId, now);
    if Engine.CanGuess(s, id, guessedPlayerId) {
      Engine.JudgeGuessScores(s, id, guessedPlayerId, now);
    }
  }

  lemma ResetGameKeepsNames(s: Snapshot, rand: real)
    requires Consistent(s) && 0.0 <= rand < 1.0
    ensures NamesKept(s.players, Engine.ResetGameKeepPlayers(s, rand).after.players)
  {
    Engine.ResetGameKeepPlayersEffect(s, rand);
  }

  // --------------------------------------------------------------- server

  /** The server: one `GameState` and the handlers that run against it.
      Besides the engine's invariant it keeps player names distinct
      ignoring case, whatever sequence of requests arrives. */
  class Server {
    const game: Game.GameState

    ghost predicate Valid()
      reads this, game
    {
      game.Valid() && NamesUnique(game.state.players)
    }

    constructor (defaults: Settings)
      ensures Valid() && fresh(game)
      ensures game.state == Engine.EmptyRoom(defaults)
    {
      game := new Game.GameState(defaults);
    }

    method OnJoin(socketId: Id, playerName: Option<string>, rColor: real, rIcon: real, now: int)
      returns (r: Result<Player, Refusal>)
      requires Valid()
      requires 0.0 <= rColor < 1.0 && 0.0 <= rIcon < 1.0
      modifies game
      ensures Valid()
      ensures Engine.Outcome(r, game.state) == Join(old(game.state), socketId, playerName, GenerateAvatar(rColor, rIcon), now)
    {
      JoinKeepsNamesUnique(game.state, socketId, playerName, GenerateAvatar(rColor, rIcon), now);
      var check := CheckJoin(game.state.players, game.state.settings.maxPlayers, playerName);
      if check.Failure? {
        return Failure(check.error);
      }
      Engine.AddPlayerStores(game.state, socketId, check.value, GenerateAvatar(rColor, rIcon), now);
      var _ := game.AddPlayer(socketId, check.value, rColor, rIcon, now);
      r := Success(game.state.players[socketId]);
    }

    method OnStartRound(socketId: Id) returns (r: Result<Engine.RoundStarted, Engine.GameError>)
      requires Valid()
      modifies game
      ensures Valid()
      ensures Engine.Outcome(r, game.state) == Engine.StartRound(old(game.state), socketId)
    {
      StartRoundKeepsNames(game.state, socketId);
      NamesKeptUnique(game.state.players, Engine.StartRound(game.state, socketId).after.players);
      r := game.StartRound(socketId);
    }

    method OnSubmitLink(socketId: Id, link: string, parse: string -> Option<Url>, decode: string -> Option<string>,
                        now: int, rand: real) returns (r: Result<Engine.Submitted, Engine.GameError>)
      requires Valid()
      requires 0.0 <= rand < 1.0
      modifies game
      ensures Valid()
      ensures Engine.Outcome(r, game.state) == Engine.SubmitLink(old(game.state), socketId, link, parse, decode, now, rand)
    {
      SubmitLinkKeepsNames(game.state, socketId, link, parse, decode, now, rand);
      NamesKeptUnique(game.state.players, Engine.SubmitLink(game.state, socketId, link, parse, decode, now, rand).after.players);
      r := game.SubmitLink(socketId, link, parse, decode, now, rand);
    }

    method OnJudgeGuess(socketId: Id, guessedPlayerId: Id, now: int) returns (r: Result<Engine.RoundPayload, Engine.GameError>)
      requires Valid()
      modifies game
      ensures Valid()
      ensures Engine.Outcome(r, game.state) == Engine.JudgeGuess(old(game.state), socketId, guessedPlayerId, now)
    {
      JudgeGuessKeepsNames(game.state, socketId, guessedPlayerId, now);
      NamesKeptUnique(game.state.players, Engine.JudgeGuess(game.state, socketId, guessedPlayerId, now).after.players);
      r := game.JudgeGuess(socketId, guessedPlayerId, now);
    }

    /** `get-stats`: the statistics of the current state, changing nothing. */
    method OnGetStats() returns (st: Selectors.Stats)
      requires Valid()
      ensures st == Selectors.BuildStats(game.state)
      ensures forall i :: 0 <= i < |st.playerStats| ==>
        st.playerStats[i].correctGuesses <= st.playerStats[i].roundsAsJudge <= st.totalRounds
    {
      st := game.BuildStats();
    }

    method OnUpdateSettings(socketId: Id, patch: SettingsPatch) returns (r: Result<Settings, Refusal>)
      requires Valid()
      modifies game
      ensures Valid()
      ensures Engine.Outcome(r, game.state) == UpdateSettings(old(game.state), socketId, patch)
    {
      Engine.UpdateSettingsEffect(game.state, patch);
      if socketId !in game.state.players || !game.state.players[socketId].isJudge {
        return Failure(OnlyJudgeSettings);
      }
      var updated := game.UpdateSettings(patch);
      r := Success(updated);
    }

    method OnResetGame(socketId: Id, rand: real) returns (newJudge: Option<string>)
      requires Valid()
      requires 0.0 <= rand < 1.0
      modifies game
      ensures Valid()
      ensures Engine.Outcome(newJudge, game.state) == ResetGame(old(game.state), socketId, rand)
    {
      ResetGameKeepsNames(game.state, rand);
      NamesKeptUnique(game.state.players, Engine.ResetGameKeepPlayers(game.state, rand).after.players);
      var newJudgeId := game.ResetGameKeepPlayers(rand);
      newJudge := None;
      if Truthy(newJudgeId) {
        newJudge := Some(game.state.players[newJudgeId.value].name);
      }
    }

    method OnDisconnect(socketId: Id, rand: real) returns (r: Option<Departure>)
      requires Valid()
      requires 0.0 <= rand < 1.0
      modifies game
      ensures Valid()
      ensures Engine.Outcome(r, game.state) == Disconnect(old(game.state), socketId, rand)
    {
      if socketId !in game.state.players {
        return None;
      }
      RemovePlayerKeepsNames(game.state, socketId, rand);
      NamesKeptUnique(game.state.players, Engine.RemovePlayer(game.state, socketId, rand).after.players);
      Engine.RemovePlayerEffect(game.state, socketId, rand);
      var player := game.state.players[socketId];
      var removal := game.RemovePlayer(socketId, rand);
      var notice: Option<string> := None;
      if removal.wasJudge && Truthy(removal.newJudgeId) {
        notice := Some(game.state.players[removal.newJudgeId.value].name);
      }
      r := Some(Departure(player.name, notice));
    }
  }
}

=== FILE: utils.dfy ===
/** Link validation, title extraction and avatar choice (backend/game/utils.js).
    The WHATWG `URL` constructor is not modelled: a link reaches these
    functions already parsed into hostname and pathname, or as `None` when
    the constructor would have thrown. `decodeURIComponent` is likewise a
    partial function supplied by the caller. */
module Utils {
  import opened Wrappers
  import opened Js

  /** The two components of a parsed URL that the game reads. */
  datatype Url = Url(hostname: string, pathname: string)

  /** The path marker of a Wikipedia article. */
  const ArticleMarker: string := "/wiki/"

  /** The title reported when a link cannot be parsed or decoded. */
  const UnknownArticle: string := "Unknown Article"

  /** A link is accepted when it parsed, its host is on wikipedia.org, its path
      is under /wiki/, and the path names neither a namespace page (a colon)
      nor a disambiguation page. The contract spells validity out over
      occurrences of substrings and characters. */
  predicate IsValidWikipediaUrl(parsed: Option<Url>): (b: bool)
    ensures b <==>
      && parsed.Some?
      && (exists i :: IsAt(parsed.value.hostname, "wikipedia.org", i))
      && (exists i :: IsAt(parsed.value.pathname, "/wiki/", i))
      && ':' !in parsed.value.pathname
      && !(exists i :: IsAt(parsed.value.pathname, "disambiguation", i))
  {
    match parsed
    case None => false
    case Some(u) =>
      IncludesChar(u.pathname, ':');
      && Includes(u.hostname, "wikipedia.org")
      && Includes(u.pathname, ArticleMarker)
      && !Includes(u.pathname, ":")
      && !Includes(u.pathname, "disambiguation")
  }

  /** Any path containing a colon is rejected, whatever else it holds. */
  lemma ColonRejected(host: string, path: string)
    requires ':' in path
    ensures !IsValidWikipediaUrl(Some(Url(host, path)))
  {
    IncludesChar(path, ':');
  }

  /** Any path mentioning "disambiguation" is rejected. */
  lemma DisambiguationRejected(host: string, path: string, i: int)
    requires IsAt(path, "disambiguation", i)
    ensures !IsValidWikipediaUrl(Some(Url(host, path)))
  {
  }

  /** A link the URL constructor refuses is rejected, without an error. */
  lemma UnparseableRejected()
    ensures !IsValidWikipediaUrl(None)
  {
  }

  /** The title of a link: the decoded path segment after the first "/wiki/"
      (up to any second "/wiki/"), with every underscore turned into a space;
      "Unknown Article" when the link does not parse or the segment does not
      decode. */
  function ExtractWikipediaTitle(parsed: Option<Url>, decode: string -> Option<string>): (title: string)
    ensures '_' !in title
    ensures parsed.None? ==> title == UnknownArticle
    ensures parsed.Some? && decode(SecondPiece(parsed.value.pathname, ArticleMarker)).None? ==>
      title == UnknownArticle
    ensures parsed.Some? && decode(SecondPiece(parsed.value.pathname, ArticleMarker)).Some? ==>
      var raw := decode(SecondPiece(parsed.value.pathname, ArticleMarker)).value;
      && |title| == |raw|
      && (forall i :: 0 <= i < |raw| ==> title[i] == if raw[i] == '_' then ' ' else raw[i])
  {
    match parsed
    case None => UnknownArticle
    case Some(u) =>
      match decode(SecondPiece(u.pathname, ArticleMarker))
      case None => UnknownArticle
      case Some(raw) => ReplaceAll(raw, '_', ' ')
  }

  /** For an article path "/wiki/" + t, the title is the decoded t with
      underscores shown as spaces, and no other character changed. */
  lemma ArticleTitle(host: string, t: string, decoded: string, decode: string -> Option<string>)
    requires !Includes(t, ArticleMarker)
    requires decode(t) == Some(decoded)
    ensures var title := ExtractWikipediaTitle(Some(Url(host, ArticleMarker + t)), decode);
      && |title| == |decoded|
      && (forall i :: 0 <= i < |decoded| ==> title[i] == if decoded[i] == '_' then ' ' else decoded[i])
  {
    SecondPieceAfterPrefix(ArticleMarker, t);
  }

  /** The link https://example.com/wiki/Foo is rejected: wrong host. */
  lemma ExampleOtherHostRejected()
    ensures !IsValidWikipediaUrl(Some(Url("example.com", "/wiki/Foo")))
  {
    NotIncludesLonger("example.com", "wikipedia.org");
  }

  /** The link https://en.wikipedia.org/wiki/Category:Foo is rejected: a namespace page. */
  lemma ExampleCategoryRejected()
    ensures !IsValidWikipediaUrl(Some(Url("en.wikipedia.org", "/wiki/Category:Foo")))
  {
    ColonRejected("en.wikipedia.org", "/wiki/Category:Foo");
  }

  /** The link https://en.wikipedia.org/wiki/Foo is accepted. */
  lemma ExampleArticleAccepted()
    ensures IsValidWikipediaUrl(Some(Url("en.wikipedia.org", "/wiki/Foo")))
  {
    var host, path := "en.wikipedia.org", "/wiki/Foo";
    assert host == "en." + "wikipedia.org";
    assert IsAt(host, "wikipedia.org", 3) by {
      assert host[3..] == "wikipedia.org";
      assert host[3..16] == host[3..][..13];
    }
    assert path == ArticleMarker + "Foo";
    assert IsAt(path, ArticleMarker, 0) by {
      assert path[0..6] == path[..6];
    }
    assert ':' !in path by {
      assert forall i :: 0 <= i < |path| ==> path[i] != ':';
    }
    IncludesChar(path, ':');
    NotIncludesLonger(path, "disambiguation");
  }

  /** Its title is "Foo" under any decoder that leaves "Foo" as it is. */
  lemma ExampleArticleTitle(decode: string -> Option<string>)
    requires decode("Foo") == Some("Foo")
    ensures ExtractWikipediaTitle(Some(Url("en.wikipedia.org", "/wiki/Foo")), decode) == "Foo"
  {
    NotIncludesLonger("Foo", ArticleMarker);
    assert "/wiki/Foo" == ArticleMarker + "Foo";
    ArticleTitle("en.wikipedia.org", "Foo", "Foo", decode);
    var title := ExtractWikipediaTitle(Some(Url("en.wikipedia.org", "/wiki/Foo")), decode);
    assert |title| == 3 && title[0] == 'F' && title[1] == 'o' && title[2] == 'o';
  }

  // ------------------------------------------------------------- avatars

  /** A player's cosmetic badge. */
  datatype Avatar = Avatar(color: string, icon: string)

  const Colors: seq<string> := [
    "#FF6B6B", "#4ECDC4", "#45B7D1", "#96CEB4",
    "#FECA57", "#FF9FF3", "#54A0FF", "#5F27CD"
  ]

  const Icons: seq<string> := [
    "\U{1F3AF}", "\U{1F3AA}", "\U{1F3A8}", "\U{1F3AD}", "\U{1F3B2}",
    "\U{1F3B8}", "\U{1F3BA}", "\U{1F3BB}", "\U{1F3B9}", "\U{1F680}",
    "\U{1F984}", "\U{1F438}", "\U{1F419}", "\U{1F98B}", "\U{1F31F}"
  ]

  /** `generateAvatar()`, given the two values `Math.random()` returned:
      a colour from the eight-entry palette and an icon from the fifteen. */
  function GenerateAvatar(rColor: real, rIcon: real): (a: Avatar)
    requires 0.0 <= rColor < 1.0 && 0.0 <= rIcon < 1.0
    ensures a.color in Colors && a.icon in Icons
    ensures |Colors| == 8 && |Icons| == 15
  {
    Avatar(Colors[RandomIndex(rColor, |Colors|)], Icons[RandomIndex(rIcon, |Icons|)])
  }
}

=== FILE: wrappers.dfy ===
/** Option and Result: the "value or absent" and "value or error" shapes the
    game server returns (`null`, and `{ ok: false, error }` / `{ ok: true, ... }`). */
module Wrappers {

  datatype Option<+T> = None | Some(value: T)

  datatype Result<+T, +E> = Success(value: T) | Failure(error: E)
}
